=== FILE: README.md ===
# Projector desktop UI — a Dafny model of its logic

The application is a two-window Qt program for projecting Bible verses. The
operator window lists the books of a translation, the chapters of the selected
book and the verses of the selected chapter; the projector window shows the
selected verse, or nothing while it is blanked ("black"). Translations are
SQLite databases that the download window fetches from a fixed catalogue.

This project models the logic under the widgets:

- `strings.dfy` (`Strings`): Python's whitespace class, `str.lower` on the Latin
  blocks, substring and prefix tests, `str.removeprefix`, and `str(n)` with its
  inverse.
- `text_clean.dfy` (`TextClean`): the sanitiser that `get_verses` applies to
  every verse text. It removes markup, collapses whitespace runs and strips the
  ends, each step written as its own recursive pass over `string`.
- `verse_store.dfy` (`VerseStore`): `BibleInfo`, and the three queries
  `get_bible_info`, `get_chapter_number` and `get_verses`. The database is two
  row sequences and the open cursor is an `Option` of them.
- `navigation.dfy` (`Navigation`): `next_verse` and `prev_verse` as a state
  machine over the chapter row, the verse row, the verse count and the global
  `current_chapter`, with Qt's `setCurrentRow` rules.
- `selection.dfy` (`Selection`): the book filter, the chapter and verse jump
  fields, and the reaction to a book being selected.
- `books_manager.dfy` (`BooksManager`): the translation catalogue,
  `BibleBook.__str__`, `find_books`, button titles, and the download and
  check-box rules of the download window.
- `screen.dfy` (`Screen`): the projector window's label and its black flag.
- `options.dfy` (`Options`): the `Option` type.

Behaviours of the code worth noting:

- A lone whitespace character is kept by the sanitiser. `\s{2,}` only rewrites
  runs of two or more.
- `prev_verse` tests the global `current_chapter` rather than the selected
  chapter row. With no chapter row selected, it can move the verse row without
  changing chapters.
- `next_verse` past the last verse with no chapter row selected selects chapter
  row 0, that is chapter 1, whatever chapter the verse list holds. The row
  before it is -1, and -1 is below the last row.
- Selecting a book clears the chapter list, which leaves it with no current
  row. The verse list and `current_chapter` keep what the previous book loaded.

Qt behaviour the model relies on:

- `setCurrentRow` selects an existing row. Any other row selects nothing (-1).
- A `currentRowChanged` handler runs to completion inside the `setCurrentRow`
  call that emitted it, as a direct connection in the same thread does. So
  `next_verse` and `prev_verse` see the reloaded verse list on their next
  statement: `prev_verse` selects the last row of the newly loaded chapter.
- Selecting the row that is already current emits no signal.
- `findItems` with `MatchStartsWith` ignores case.
- The `currentRowChanged` signal only ever carries -1 or an existing row. This
  is why `SelectedBookChanged` requires `index < |items|`.

## Model

| member | source | states |
|---|---|---|
| `Strings.Lower` | database/bible.py:191 | `str.lower()` moves `A`..`Z` and the Latin-1 capitals up by 32 code points. It keeps lower-case letters, digits, whitespace and every other Latin-1 character as they are, and it never lowers a code point except for `Ÿ`. |
| `Strings.LowerIdempotent` | database/bible.py:191 | Lower-casing a lower-cased character changes nothing. |
| `Strings.Contains` | database/bible.py:191 | Python's `in` on strings holds exactly when the needle occurs in the text at some index. |
| `Strings.RemovePrefix` | database/books_manager.py:41 | When `s` starts with `p`, the result is what follows `p`, so `p + r == s`. Otherwise `s` is unchanged. |
| `Strings.Decimal` | database/bible.py:156 | `str(n)` gives a canonical numeral: digits only, no leading zero. It has one digit exactly when `n < 10`. |
| `Strings.IntToString` | database/bible.py:166 | `str(i)` gives a canonical numeral whose value is `i`. Negative numbers get a `-` in front of the numeral of `-i`. |
| `Strings.DecimalRoundTrip` | database/bible.py:156 | Reading back the numeral `str(n)` gives `n`. |
| `Strings.DecimalOfValue` | database/bible.py:156 | Printing the value of a canonical numeral gives the numeral back, so `str` and reading are inverse on canonical numerals. |
| `TextClean.StripMarkup` | database/bible.py:253 | Markup removal never lengthens the text and only keeps characters of the input. No `<` is followed by a `>`, and no `[` by a `]`. |
| `TextClean.CollapseSpaces` | database/bible.py:253 | After collapsing, no two whitespace characters are adjacent and the text is no longer. The first character is whitespace exactly when the input's was, and a non-space first character is kept. Every character comes from the input or is a space. |
| `TextClean.Trim` | database/bible.py:253 | `strip()` gives a slice with no whitespace at either end. Everything cut off on either side is whitespace. |
| `TextClean.Sanitize` | database/bible.py:253 | Sanitised text is clean: markup-free, no adjacent whitespace, no whitespace at either end. It is no longer than the stored text. |
| `TextClean.TrimKeepsClean` | database/bible.py:253 | Stripping the ends of markup-free, single-spaced text gives clean text. |
| `TextClean.CollapseKeepsMarkupFree` | database/bible.py:253 | Collapsing whitespace cannot create a markup span, because it only inserts spaces. |
| `TextClean.StripMarkupOfFree` | database/bible.py:253 | Text with no markup span passes through markup removal unchanged. |
| `TextClean.CollapseOfSingleSpaced` | database/bible.py:253 | Text with no two adjacent whitespace characters passes through collapsing unchanged. |
| `TextClean.TrimOfTrimmed` | database/bible.py:253 | Text with no whitespace at either end passes through `strip()` unchanged. |
| `TextClean.SanitizeFixedPoints` | database/bible.py:253 | The sanitiser leaves a text unchanged exactly when the text is clean. Both directions are proved. |
| `TextClean.SanitizeIdempotent` | database/bible.py:253 | Sanitising twice gives the same text as sanitising once. |
| `TextClean.StripMarkupDropsSpan` | database/bible.py:253 | A `<…>` tag whose body holds no `>`, or a `[…]` annotation whose body holds no `]`, is deleted with its brackets, and the scan goes on after it. |
| `TextClean.StripMarkupKeepsPlain` | database/bible.py:253 | A stretch holding neither `<` nor `[` passes through markup removal untouched, in front of whatever the rest becomes. |
| `TextClean.CollapseKeepsWord` | database/bible.py:253 | A stretch without whitespace passes through collapsing untouched, in front of whatever the rest becomes. |
| `TextClean.CollapseRun` | database/bible.py:253 | A whitespace run before a non-space becomes one space when it is two or more characters long. A lone whitespace character is kept as it is. |
| `VerseStore.FullNameInjective` | database/bible.py:35-36 | The full name `(short) long` determines both names when short names hold no `)`. This is what lets a book-list item be mapped back to its book. |
| `VerseStore.SortById` | database/bible.py:235-237 | `ORDER BY book_number` gives the same rows, as a multiset, in ascending book-number order. |
| `VerseStore.GetBibleInfo` | database/bible.py:232-237 | With no cursor the result is `[]`. Otherwise it is every book row, as a multiset, ordered by book number. |
| `VerseStore.ChapterGroups` | database/bible.py:243-244 | The `GROUP BY chapter` rows have no repeated chapter and cover exactly the chapters stored for the book. |
| `VerseStore.GetChapterNumber` | database/bible.py:240-245 | With no cursor the result is -1. Otherwise it is the number of distinct chapter values among the book's rows. |
| `VerseStore.ChapterLabels` | database/bible.py:156 | The chapter list has `max(n, 0)` items. Item `i` is a canonical numeral whose value is `i + 1`, so the items are "1".."n". |
| `VerseStore.SelectRows` | database/bible.py:250-251 | The `WHERE` clause keeps exactly the table rows of the requested book and chapter. |
| `VerseStore.SelectRowsAppend` | database/bible.py:250-251 | Row selection distributes over concatenation of the table, so it keeps storage order. |
| `VerseStore.GetVerses` | database/bible.py:247-254 | With no cursor the result is `[]`. Otherwise it has one entry per selected row in the same order, with the verse number kept and the text sanitised. Every returned text is clean. |
| `VerseStore.GetVersesStable` | database/bible.py:252-254 | Sanitising a returned verse text again changes nothing. |
| `VerseStore.PadRight` | database/bible.py:166 | `:<5` pads on the right with spaces to at least the width, and keeps the original text as a prefix. |
| `VerseStore.VerseLabel` | database/bible.py:166 | A verse item starts with the verse number and a dot. Spaces pad that head to five characters, or leave it as is when it is longer. One more space and then the text follow, so the item's length is the head's width plus one plus the text's length. |
| `VerseStore.VerseItems` | database/bible.py:166 | The verse list has one item per verse, in order. Item `i` is verse `i`'s label, so it carries that verse's number, its padding and its text. |
| `Navigation.SelectChapterRow` | database/bible.py:159-165 | Re-selecting the current row changes nothing. Selecting another existing row makes it current and reloads the verse list with no verse selected. Any other row only clears the chapter selection. The widget invariant is kept. |
| `Navigation.SelectVerseRow` | database/bible.py:121-123 | The verse row becomes the requested row if it exists, else -1. Nothing else changes. |
| `Navigation.NextVerse` | database/bible.py:115-123 | Advances within the chapter, or rolls over to the first verse of the next chapter row after the last verse. With no chapter row selected, that is row 0, chapter 1. At the last verse of the last chapter it changes nothing. The widget invariant is kept. |
| `Navigation.PrevVerse` | database/bible.py:125-134 | Steps back within the chapter, or from the first verse to the last verse of the previous chapter. At the first verse of chapter 1 it changes nothing. With no chapter row selected it follows `current_chapter`. The widget invariant is kept. |
| `Navigation.NextMovesForward` | database/bible.py:115-123 | `next_verse` leaves the state unchanged exactly at the last verse of the last chapter. Everywhere else it moves strictly forward in (chapter, verse) order. |
| `Navigation.PrevMovesBack` | database/bible.py:125-134 | With a chapter selected, `prev_verse` leaves the state unchanged exactly at the start of chapter 1. Everywhere else it moves strictly backward. |
| `Navigation.NextThenPrev` | database/bible.py:115-134 | From any selected verse but the very last, `next_verse` then `prev_verse` returns to the same state. |
| `Navigation.PrevThenNext` | database/bible.py:115-134 | From any selected verse but the very first, `prev_verse` then `next_verse` returns to the same state. |
| `Selection.FilteredNames` | database/bible.py:191 | The filter keeps a book's full name exactly when it contains the typed text, ignoring case. It never lists more names than there are books. |
| `Selection.FilteredNamesAppend` | database/bible.py:191 | Filtering distributes over concatenation of the book list, so it keeps book order. |
| `Selection.EmptyFilterKeepsAll` | database/bible.py:191 | An empty filter lists every book's full name, in order. |
| `Selection.FilterBooks` | database/bible.py:190-197 | The list is refilled with the filtered names. Row 0 is selected exactly when one name is left; otherwise there is no selection. |
| `Selection.JumpRow` | database/bible.py:201-206 | The jump selects a row only when it is the single item starting with the typed text, ignoring case. It selects -1 exactly when no such single item exists. |
| `Selection.ChapterChanged` | database/bible.py:200-206 | The chapter field selects the unique chapter item with that prefix, or clears the selection when there is none. Clearing leaves the verse row, the verse list and `current_chapter` as they were. Re-selecting the current row changes nothing. Moving to another row loads that chapter with no verse selected. The widget invariant is kept. |
| `Selection.VerseChanged` | database/bible.py:208-214 | The verse field selects the unique verse item with that prefix, or clears the verse selection when there is none. Nothing but the verse row changes. |
| `Selection.ChapterRowLoadsVerses` | database/bible.py:159-166 | With counts read from the database, selecting chapter row `i` loads chapter `i + 1`. The verse list then holds as many items as `get_verses` returns for that chapter. |
| `Selection.ChapterJumpUnique` | database/bible.py:200-203 | In a book with `n` chapters, typing the number `k` selects chapter `k` exactly when `n < 10 k`, that is, when no other chapter number starts with the digits of `k`. |
| `Selection.BookIdByName` | database/bible.py:153 | The lookup finds the id of the first book with that full name. It gives `None`, standing for the `[0]` raising, exactly when no book has that name. |
| `Selection.SelectedBookChanged` | database/bible.py:148-157 | Row -1 is ignored. An item naming no book is an error. Otherwise the first book with that full name becomes current, and the chapter list is "1".."n" for its `n` distinct chapters. The chapter list is left with no current row, and the verse list and `current_chapter` are unchanged. |
| `Selection.BookChangeKeepsWidgetState` | database/bible.py:148-157 | After a book change, the lists satisfy the widget invariant against the new book's verse counts, with one count per chapter item. |
| `Selection.FilterThenSelect` | database/bible.py:190-197 | When the filter leaves a single book, the resulting selection makes current a book whose full name contains the typed text. |
| `BooksManager.Describe` | database/books_manager.py:15-16 | The description is the name, then the id in parentheses, then ` : ` and the URL. Its length is the three parts' lengths plus six. |
| `BooksManager.CatalogueWellFormed` | database/books_manager.py:18-23 | Catalogue identifiers are pairwise distinct and hold no `.`, so `[0]` lookups by id are unambiguous. |
| `BooksManager.CatalogueEntry` | database/books_manager.py:42 | The lookup gives a catalogue entry with the requested id. It gives `None` exactly when no entry has that id. |
| `BooksManager.FileStem` | database/books_manager.py:85 | `split(".")[0]` gives the prefix of the file name before its first `.`, and that prefix holds no `.`. |
| `BooksManager.StemOfDatabaseFile` | database/books_manager.py:85 | A database stored as `<id>.SQLite3` is found under `id`. |
| `BooksManager.FindBooks` | database/books_manager.py:81-85 | There is one identifier per directory entry, in listing order. Each is the entry's stem, without a `.`. |
| `BooksManager.ButtonTitle` | database/books_manager.py:65-66 | The button title is the catalogue name of an identifier in the catalogue, and the identifier itself otherwise. |
| `BooksManager.LayoutBooks` | database/books_manager.py:64-68 | There is one button per found identifier, in order. Each carries the identifier and its title. |
| `BooksManager.StopAt` | database/books_manager.py:40-42 | The loop stops at the first enabled, checked box whose id the catalogue lacks. No box before it raises. Without such a box, the loop runs to the end. |
| `BooksManager.DownloadPlan` | database/books_manager.py:39-43 | Only catalogue books that some enabled, checked box asks for are downloaded. Taking every download to succeed, the loop fails exactly when such a box names an unknown id. Every requested box before that point gets one download, in box order, even when the loop then fails. |
| `BooksManager.SetCheckBoxes` | database/books_manager.py:48-53 | Exactly the boxes whose identifier was found become checked and disabled. Every other box is left as it was. |
| `BooksManager.SetCheckBoxesIdempotent` | database/books_manager.py:48-53 | Marking the boxes a second time against the same listing changes nothing. |
| `BooksManager.NoRedownload` | database/books_manager.py:39-53 | After the boxes are marked, no installed translation is downloaded again. |
| `BooksManager.BtnDownload` | database/books_manager.py:38-46 | The click starts the planned downloads. The boxes are then marked and the translation buttons rebuilt, both against the listing as it stands afterwards. Every box whose translation now has a button is checked and disabled. When an unknown identifier made the loop raise, the boxes and buttons are untouched. |
| `Screen.NewScreen` | ui/screen.py:10-12 | A new window is not blanked and shows an empty label. |
| `Screen.SetText` | ui/screen.py:22-24 | When not blanked, the label shows the text. While blanked, the window is unchanged. The black flag never changes. |
| `Screen.TriggerBlack` | ui/screen.py:32-37 | The flag flips. Entering black mode clears the label; leaving it keeps the label. |
| `Screen.ToggleTwice` | ui/screen.py:32-37 | Two toggles restore the flag and leave the label empty. |
| `Screen.RunKeepsBlanked` | ui/screen.py:22-37 | Across any sequence of calls, a blanked window shows nothing. |
| `Screen.TextWhileBlack` | ui/screen.py:22-24 | While blanked, no sequence of `setText` calls changes the window. |
| `Screen.TextWhileShown` | ui/screen.py:22-24 | When not blanked, after a sequence of `setText` calls the label shows the last text set, or the old label if none was. |

## Left out

- Qt wiring is not modelled. This covers event filters, signal connections, focus moves (`focusNextChild`), font-size buttons, validators, window flags, style sheets, colours, geometry, `hide`, `show_header` and `hide_header`. The model keeps only the state the widgets hold.
- The SQLite connection (`init_db`) and SQL execution are replaced by the two tables as row sequences. `change_bible` depends on live widgets and prints any exception.
- Downloading, zip extraction, deleting the archive and the finish message box are network and file I/O. The directory listing of `database/books` is an input sequence, and `BtnDownload` takes the listing after the downloads as a parameter.
- `chapter_finished` and `verse_finished` are not modelled. They call `int(text)` on the field's text and raise on anything non-numeric.
- `selected_chapter_changed`'s header text (`text_info`) is not modelled.
- `selected_verse_changed`, `selected_verse_clicked` and the blank action are not modelled. They call `setText` with two arguments, while the projector window's `setText` takes one. The blank action uses a `main_label` the window does not have. The projector window is modelled as its own class defines it.
- `Strings.Lower` maps only the one-to-one cases of ASCII, Latin-1 and Latin Extended-A. Other characters are left unchanged, including U+0130, whose lower case is two characters. Qt's case-insensitive match uses Qt's case folding, which the model takes to agree with this mapping.
- `VerseStore.GetVerses` returns the selected rows in the order the table sequence lists them. The query has no `ORDER BY`, so SQLite promises no order; the model fixes one, and a database read through an index on (book, chapter, verse) corresponds to a table sequence already in verse order.
- `BooksManager.DownloadPlan` takes every `download_book` call to return normally. In the code, `urlretrieve`, opening the zip archive and extracting `<id>.SQLite3` can each raise, which also ends the loop. The plan only fails on an identifier missing from the catalogue.
- `BooksManager.BtnDownload` marks the boxes and rebuilds the buttons whenever the plan does not fail. A `download_book` that raises would skip `set_check_boxes` and `layout_books` too, and the model does not represent that outcome.
- `VerseStore.SortById` keeps rows with equal book numbers in storage order. SQLite does not promise any particular order for such ties.

=== FILE: books_manager.dfy ===
/**
 * The translation catalogue and the download window's selection rules. The
 * directory listing of `database/books` is an input sequence of file names;
 * downloading and unpacking are left to the caller.
 */
module BooksManager {

  import opened Options
  import opened Strings

  /** A downloadable translation: display name, identifier and archive URL. */
  datatype BibleBook = BibleBook(name: string, id: string, url: string)

  /** `BibleBook.__str__`: "name (id) : url". */
  function Describe(b: BibleBook): (r: string)
    ensures |r| == |b.name| + |b.id| + |b.url| + 6
    ensures IsPrefix(b.name + " (" + b.id + ")", r)
    ensures r[|b.name| + |b.id| + 3..|b.name| + |b.id| + 6] == " : "
    ensures r[|r| - |b.url|..] == b.url
  {
    var r := b.name + " (" + b.id + ") : " + b.url;
    assert r[..|b.name| + |b.id| + 3] == b.name + " (" + b.id + ")";
    assert r[|b.name| + |b.id| + 3..|b.name| + |b.id| + 6] == " : ";
    r
  }

  /** The module-level `books` list. */
  const Catalogue: seq<BibleBook> := [
    BibleBook("\U{00DA}f", "HUNB", "https://www.ph4.org/_dl.php?back=bbl&a=HUNB&b=mybible&c"),
    BibleBook("Kar", "KB", "https://www.ph4.org/_dl.php?back=bbl&a=KB&b=mybible&c"),
    BibleBook("RKar", "KSZE", "https://www.ph4.org/_dl.php?back=bbl&a=KSZE&b=mybible&c"),
    BibleBook("R\U{00FA}f", "RUF", "https://www.ph4.org/_dl.php?back=bbl&a=RUF&b=mybible&c")
  ]

  /** No two catalogue entries share an identifier, and none holds a `.`. */
  lemma CatalogueWellFormed()
    ensures forall i, j :: 0 <= i < j < |Catalogue| ==> Catalogue[i].id != Catalogue[j].id
    ensures forall i :: 0 <= i < |Catalogue| ==> '.' !in Catalogue[i].id
  {
  }

  /** The first catalogue entry with identifier `id`: the `[0]` of the list comprehensions. */
  function CatalogueEntry(id: string): (r: Option<BibleBook>)
    ensures r.None? <==> forall b :: b in Catalogue ==> b.id != id
    ensures r.Some? ==> r.value in Catalogue && r.value.id == id
  {
    if Catalogue[0].id == id then Some(Catalogue[0])
    else if Catalogue[1].id == id then Some(Catalogue[1])
    else if Catalogue[2].id == id then Some(Catalogue[2])
    else if Catalogue[3].id == id then Some(Catalogue[3])
    else None
  }

  // ---------------------------------------------------------------------------
  // find_books / layout_books
  // ---------------------------------------------------------------------------

  /** `f.split(".")[0]`: the file name up to its first `.`. */
  function FileStem(f: string): (r: string)
    ensures IsPrefix(r, f)
    ensures '.' !in r
    ensures |r| < |f| ==> f[|r|] == '.'
  {
    if '.' in f then
      var k := FirstIndex(f, '.');
      assert forall j :: 0 <= j < k ==> f[..k][j] == f[j];
      f[..k]
    else
      f
  }

  /** A downloaded database, stored as `<id>.SQLite3`, is found under its identifier. */
  lemma StemOfDatabaseFile(id: string)
    requires '.' !in id
    ensures FileStem(id + ".SQLite3") == id
  {
    var f := id + ".SQLite3";
    var r := FileStem(f);
    assert f[|id|] == '.';
    assert r == f[..|id|];
  }

  /** `find_books`: one identifier per directory entry, in listing order. */
  function FindBooks(listing: seq<string>): (r: seq<string>)
    ensures |r| == |listing|
    ensures forall i :: 0 <= i < |r| ==> r[i] == FileStem(listing[i]) && '.' !in r[i]
  {
    seq(|listing|, i requires 0 <= i < |listing| => FileStem(listing[i]))
  }

  /** The button title of an installed translation: its catalogue name, else the identifier. */
  function ButtonTitle(id: string): (r: string)
    ensures (forall b :: b in Catalogue ==> b.id != id) ==> r == id
    ensures forall b :: b in Catalogue && b.id == id ==> r == b.name
  {
    CatalogueWellFormed();
    match CatalogueEntry(id)
    case None => id
    case Some(b) => b.name
  }

  /** A translation button: its title and its `bookName` property. */
  datatype BookButton = BookButton(title: string, bookName: string)

  /** `layout_books`: one button per installed translation, in listing order. */
  function LayoutBooks(listing: seq<string>): (r: seq<BookButton>)
    ensures |r| == |listing|
    ensures forall i :: 0 <= i < |r| ==> r[i].bookName == FileStem(listing[i]) && r[i].title == ButtonTitle(r[i].bookName)
  {
    var found := FindBooks(listing);
    seq(|found|, i requires 0 <= i < |found| => BookButton(ButtonTitle(found[i]), found[i]))
  }

  // ---------------------------------------------------------------------------
  // btn_download / set_check_boxes
  // ---------------------------------------------------------------------------

  /** A check box of the download window. */
  datatype CheckBox = CheckBox(objectName: string, enabled: bool, checked: bool)

  /** `item.objectName().removeprefix("check")`. */
  function BoxId(box: CheckBox): string
  {
    RemovePrefix(box.objectName, "check")
  }

  /** The box asks for a download. */
  predicate Requested(box: CheckBox)
  {
    box.enabled && box.checked
  }

  /** The downloads `btn_download` starts, and whether its loop stopped on an unknown identifier. */
  datatype Downloads = Downloads(books: seq<BibleBook>, failed: bool)

  /** Some requested box among the first `n` carries identifier `id`. */
  predicate RequestedAmong(boxes: seq<CheckBox>, n: nat, id: string)
    requires n <= |boxes|
  {
    exists i :: 0 <= i < n && Requested(boxes[i]) && BoxId(boxes[i]) == id
  }

  /** Some requested box carries identifier `id`. */
  predicate RequestsId(boxes: seq<CheckBox>, id: string)
  {
    RequestedAmong(boxes, |boxes|, id)
  }

  /** Some requested box carries an identifier the catalogue does not know. */
  predicate RequestsUnknown(boxes: seq<CheckBox>)
  {
    exists i :: 0 <= i < |boxes| && Raises(boxes[i])
  }

  /** Some download is of the translation `id`. */
  predicate Downloading(books: seq<BibleBook>, id: string)
  {
    exists k :: 0 <= k < |books| && books[k].id == id
  }

  /** The box's `[0]` raises: it asks for a download of an identifier the catalogue lacks. */
  predicate Raises(box: CheckBox)
  {
    Requested(box) && CatalogueEntry(BoxId(box)).None?
  }

  /** The index of the first box whose `[0]` raises, or `|boxes|` when none does. */
  function StopAt(boxes: seq<CheckBox>): (r: nat)
    ensures r <= |boxes|
    ensures forall i :: 0 <= i < r ==> !Raises(boxes[i])
    ensures r < |boxes| ==> Raises(boxes[r])
  {
    if |boxes| == 0 then 0
    else if Raises(boxes[0]) then 0
    else
      var t := StopAt(boxes[1..]);
      assert forall i :: 1 <= i < t + 1 ==> boxes[i] == boxes[1..][i - 1];
      t + 1
  }

  /** The identifiers of the requested boxes among the first `n`, in box order. */
  function RequestedIds(boxes: seq<CheckBox>, n: nat): (r: seq<string>)
    requires n <= |boxes|
    ensures |r| <= n
    ensures forall k :: 0 <= k < |r| ==> RequestedAmong(boxes, n, r[k])
    ensures forall i :: 0 <= i < n && Requested(boxes[i]) ==> BoxId(boxes[i]) in r
  {
    if n == 0 then []
    else
      var rest := RequestedIds(boxes[1..], n - 1);
      IdsWithFirstBox(boxes, n, rest);
      (if Requested(boxes[0]) then [BoxId(boxes[0])] else []) + rest
  }

  /** Identifiers drawn from requested boxes among the later `n - 1` are drawn from requested boxes among the first `n`. */
  lemma IdsWithFirstBox(boxes: seq<CheckBox>, n: nat, rest: seq<string>)
    requires 0 < n <= |boxes|
    requires forall k :: 0 <= k < |rest| ==> RequestedAmong(boxes[1..], n - 1, rest[k])
    ensures
      var r := (if Requested(boxes[0]) then [BoxId(boxes[0])] else []) + rest;
      forall k :: 0 <= k < |r| ==> RequestedAmong(boxes, n, r[k])
  {
    var head := if Requested(boxes[0]) then [BoxId(boxes[0])] else [];
    var r := head + rest;
    forall k | 0 <= k < |r|
      ensures RequestedAmong(boxes, n, r[k])
    {
      if k < |head| {
        assert Requested(boxes[0]) && BoxId(boxes[0]) == r[k];
      } else {
        assert r[k] == rest[k - |head|];
        assert RequestedAmong(boxes[1..], n - 1, rest[k - |head|]);
        var i :| 0 <= i < n - 1 && Requested(boxes[1..][i]) && BoxId(boxes[1..][i]) == rest[k - |head|];
        assert boxes[i + 1] == boxes[1..][i];
      }
    }
  }

  /** The downloads are of the identifiers `ids`, one each, in that order. */
  predicate HasIds(books: seq<BibleBook>, ids: seq<string>)
  {
    |books| == |ids| && forall k :: 0 <= k < |books| ==> books[k].id == ids[k]
  }

  /** Every requested box among the first `n` has its translation downloaded. */
  predicate Covers(books: seq<BibleBook>, boxes: seq<CheckBox>, n: nat)
    requires n <= |boxes|
  {
    forall i :: 0 <= i < n && Requested(boxes[i]) ==> Downloading(books, BoxId(boxes[i]))
  }

  /**
   * What the loop of `btn_download` does for `boxes`: every download is a
   * catalogue entry some requested box asks for; the loop fails exactly when
   * some requested box has an identifier the catalogue lacks, which is when
   * it stops before the end; up to that stop, each requested box, in order,
   * gets one download of its identifier.
   */
  predicate IsPlan(boxes: seq<CheckBox>, r: Downloads)
  {
    && (forall k :: 0 <= k < |r.books| ==> r.books[k] in Catalogue && RequestsId(boxes, r.books[k].id))
    && (r.failed <==> RequestsUnknown(boxes))
    && (r.failed <==> StopAt(boxes) < |boxes|)
    && HasIds(r.books, RequestedIds(boxes, StopAt(boxes)))
    && Covers(r.books, boxes, StopAt(boxes))
  }

  /**
   * The loop of `btn_download`: each enabled and checked box, in order, has
   * its catalogue entry downloaded; a box whose identifier is not in the
   * catalogue makes the `[0]` raise, which ends the loop after the downloads
   * of the boxes before it.
   */
  function DownloadPlan(boxes: seq<CheckBox>): (r: Downloads)
    ensures IsPlan(boxes, r)
    decreases |boxes|
  {
    if |boxes| == 0 then
      Downloads([], false)
    else if Requested(boxes[0]) then
      match CatalogueEntry(BoxId(boxes[0]))
      case None =>
        assert RequestsUnknown(boxes);
        Downloads([], true)
      case Some(b) =>
        var rest := DownloadPlan(boxes[1..]);
        PlanWithHead(boxes, b, rest);
        Downloads([b] + rest.books, rest.failed)
    else
      var rest := DownloadPlan(boxes[1..]);
      PlanSkippingHead(boxes, rest);
      rest
  }

  /** A first box asking for the known translation `b`: its download goes in front of the plan for the rest. */
  lemma PlanWithHead(boxes: seq<CheckBox>, b: BibleBook, rest: Downloads)
    requires |boxes| > 0 && Requested(boxes[0]) && CatalogueEntry(BoxId(boxes[0])) == Some(b)
    requires IsPlan(boxes[1..], rest)
    ensures IsPlan(boxes, Downloads([b] + rest.books, rest.failed))
  {
    UnknownInTail(boxes);
    RequestedInTail(boxes, b, rest.books);
    StopStep(boxes);
    IdsWithHead(b, rest.books, RequestedIds(boxes[1..], StopAt(boxes[1..])));
    CoveredWithHead(boxes, b, rest.books, StopAt(boxes));
  }

  /** A first box asking for nothing leaves the plan for the rest as it is. */
  lemma PlanSkippingHead(boxes: seq<CheckBox>, rest: Downloads)
    requires |boxes| > 0 && !Requested(boxes[0])
    requires IsPlan(boxes[1..], rest)
    ensures IsPlan(boxes, rest)
  {
    UnknownInTail(boxes);
    StopStep(boxes);
    SkippedHead(boxes, rest.books, StopAt(boxes));
    RequestedByTail(boxes, rest.books);
  }

  /** Downloads requested by the later boxes are requested by some box. */
  lemma RequestedByTail(boxes: seq<CheckBox>, later: seq<BibleBook>)
    requires |boxes| > 0
    requires forall k :: 0 <= k < |later| ==> RequestsId(boxes[1..], later[k].id)
    ensures forall k :: 0 <= k < |later| ==> RequestsId(boxes, later[k].id)
  {
    forall k | 0 <= k < |later|
      ensures RequestsId(boxes, later[k].id)
    {
      assert RequestsId(boxes[1..], later[k].id);
      var i :| 0 <= i < |boxes[1..]| && Requested(boxes[1..][i]) && BoxId(boxes[1..][i]) == later[k].id;
      assert boxes[i + 1] == boxes[1..][i];
    }
  }

  /** When the first box does not raise, the stop and the requested identifiers before it move on by one box. */
  lemma {:induction false} StopStep(boxes: seq<CheckBox>)
    requires |boxes| > 0 && !Raises(boxes[0])
    ensures StopAt(boxes) == StopAt(boxes[1..]) + 1
    ensures RequestedIds(boxes, StopAt(boxes))
      == (if Requested(boxes[0]) then [BoxId(boxes[0])] else []) + RequestedIds(boxes[1..], StopAt(boxes[1..]))
  {
    var n := StopAt(boxes[1..]) + 1;
    assert StopAt(boxes) == n;
    assert RequestedIds(boxes, n)
      == (if Requested(boxes[0]) then [BoxId(boxes[0])] else []) + RequestedIds(boxes[1..], n - 1);
  }

  /** A download in front of downloads matching `ids` matches its own identifier in front of `ids`. */
  lemma IdsWithHead(b: BibleBook, later: seq<BibleBook>, ids: seq<string>)
    requires HasIds(later, ids)
    ensures HasIds([b] + later, [b.id] + ids)
  {
    var all := [b] + later;
    assert forall k :: 1 <= k < |all| ==> all[k] == later[k - 1];
  }

  /** When the first box raises nothing, an unknown request is one among the other boxes. */
  lemma UnknownInTail(boxes: seq<CheckBox>)
    requires |boxes| > 0 && !(Requested(boxes[0]) && CatalogueEntry(BoxId(boxes[0])).None?)
    ensures RequestsUnknown(boxes[1..]) <==> RequestsUnknown(boxes)
  {
    var tail := boxes[1..];
    if RequestsUnknown(boxes) {
      var i :| 0 <= i < |boxes| && Raises(boxes[i]);
      assert tail[i - 1] == boxes[i];
    }
    if RequestsUnknown(tail) {
      var i :| 0 <= i < |tail| && Raises(tail[i]);
      assert boxes[i + 1] == tail[i];
    }
  }

  /** Downloads drawn from the later boxes, behind one for the first box, are all requested by some box. */
  lemma RequestedInTail(boxes: seq<CheckBox>, b: BibleBook, later: seq<BibleBook>)
    requires |boxes| > 0 && Requested(boxes[0]) && BoxId(boxes[0]) == b.id
    requires forall k :: 0 <= k < |later| ==> RequestsId(boxes[1..], later[k].id)
    ensures forall k :: 0 <= k < |later| + 1 ==> RequestsId(boxes, ([b] + later)[k].id)
  {
    forall k | 0 <= k < |later| + 1
      ensures RequestsId(boxes, ([b] + later)[k].id)
    {
      if k == 0 {
        assert ([b] + later)[0] == b;
      } else {
        var d := ([b] + later)[k];
        assert d == later[k - 1];
        var i :| 0 <= i < |boxes[1..]| && Requested(boxes[1..][i]) && BoxId(boxes[1..][i]) == d.id;
        assert boxes[i + 1] == boxes[1..][i];
      }
    }
  }

  /** A download for the first box, in front of downloads covering the later boxes up to the stop, covers every box up to it. */
  lemma CoveredWithHead(boxes: seq<CheckBox>, b: BibleBook, later: seq<BibleBook>, n: nat)
    requires |boxes| > 0 && Requested(boxes[0]) && BoxId(boxes[0]) == b.id
    requires 1 <= n <= |boxes|
    requires Covers(later, boxes[1..], n - 1)
    ensures Covers([b] + later, boxes, n)
  {
    var all := [b] + later;
    forall i | 0 <= i < n && Requested(boxes[i])
      ensures Downloading(all, BoxId(boxes[i]))
    {
      if i == 0 {
        assert all[0].id == BoxId(boxes[i]);
      } else {
        assert boxes[1..][i - 1] == boxes[i];
        var k :| 0 <= k < |later| && later[k].id == BoxId(boxes[i]);
        assert all[k + 1] == later[k];
      }
    }
  }

  /** Downloads covering the later boxes up to the stop cover every box up to it when the first box asks for nothing. */
  lemma SkippedHead(boxes: seq<CheckBox>, later: seq<BibleBook>, n: nat)
    requires |boxes| > 0 && !Requested(boxes[0])
    requires 1 <= n <= |boxes|
    requires Covers(later, boxes[1..], n - 1)
    ensures Covers(later, boxes, n)
  {
    forall i | 0 <= i < n && Requested(boxes[i])
      ensures Downloading(later, BoxId(boxes[i]))
    {
      assert boxes[1..][i - 1] == boxes[i];
    }
  }

  /**
   * `set_check_boxes`: every box whose identifier is installed becomes
   * checked and disabled; the other boxes are left as they were.
   */
  function SetCheckBoxes(boxes: seq<CheckBox>, found: seq<string>): (r: seq<CheckBox>)
    ensures |r| == |boxes|
    ensures forall i :: 0 <= i < |r| ==> r[i].objectName == boxes[i].objectName
    ensures forall i :: 0 <= i < |r| && BoxId(boxes[i]) in found ==> r[i].checked && !r[i].enabled
    ensures forall i :: 0 <= i < |r| && BoxId(boxes[i]) !in found ==> r[i] == boxes[i]
  {
    seq(|boxes|, i requires 0 <= i < |boxes| =>
      if BoxId(boxes[i]) in found then CheckBox(boxes[i].objectName, false, true) else boxes[i])
  }

  /** Marking the installed boxes a second time changes nothing. */
  lemma SetCheckBoxesIdempotent(boxes: seq<CheckBox>, found: seq<string>)
    ensures SetCheckBoxes(SetCheckBoxes(boxes, found), found) == SetCheckBoxes(boxes, found)
  {
    var once := SetCheckBoxes(boxes, found);
    assert forall i :: 0 <= i < |once| ==> BoxId(once[i]) == BoxId(boxes[i]);
  }

  /** After the boxes are marked, no installed translation is downloaded again. */
  lemma NoRedownload(boxes: seq<CheckBox>, found: seq<string>)
    ensures forall d :: d in DownloadPlan(SetCheckBoxes(boxes, found)).books ==> d.id !in found
  {
    var marked := SetCheckBoxes(boxes, found);
    var plan := DownloadPlan(marked);
    forall d | d in plan.books ensures d.id !in found {
      var k :| 0 <= k < |plan.books| && plan.books[k] == d;
      var i :| 0 <= i < |marked| && Requested(marked[i]) && BoxId(marked[i]) == d.id;
      assert marked[i].objectName == boxes[i].objectName;
    }
  }

  /** The windows after `btn_download`: the downloads started, the boxes and the main window's translation buttons. */
  datatype DownloadClick = DownloadClick(downloads: Downloads, boxes: seq<CheckBox>, buttons: seq<BookButton>)

  /**
   * `btn_download`: the downloads, then `set_check_boxes` and `layout_books`
   * against the listing as it stands afterwards. When the loop raised, the
   * rest of the handler does not run: the boxes and the buttons are untouched.
   */
  function BtnDownload(boxes: seq<CheckBox>, buttons: seq<BookButton>, listingAfter: seq<string>): (r: DownloadClick)
    ensures r.downloads == DownloadPlan(boxes)
    ensures r.downloads.failed ==> r.boxes == boxes && r.buttons == buttons
    ensures !r.downloads.failed ==> r.boxes == SetCheckBoxes(boxes, FindBooks(listingAfter))
    ensures !r.downloads.failed ==> r.buttons == LayoutBooks(listingAfter)
    ensures !r.downloads.failed ==>
      forall i, j :: 0 <= i < |r.boxes| && 0 <= j < |r.buttons| && BoxId(r.boxes[i]) == r.buttons[j].bookName ==>
        r.boxes[i].checked && !r.boxes[i].enabled
  {
    var plan := DownloadPlan(boxes);
    if plan.failed then
      DownloadClick(plan, boxes, buttons)
    else
      var found := FindBooks(listingAfter);
      var marked := SetCheckBoxes(boxes, found);
      var laid := LayoutBooks(listingAfter);
      assert forall i :: 0 <= i < |marked| ==> BoxId(marked[i]) == BoxId(boxes[i]);
      assert forall j :: 0 <= j < |laid| ==> laid[j].bookName == found[j];
      DownloadClick(plan, marked, laid)
  }

}

=== FILE: navigation.dfy ===
/**
 * Verse navigation (`next_verse`, `prev_verse`) as a state machine over what
 * the chapter and verse list widgets hold. Selecting a chapter row reloads
 * the verse list (`selected_chapter_changed`); `counts[i]` is the number of
 * verses that chapter row `i` loads.
 */
module Navigation {

  /**
   * `chapterRow`, `verseRow`: the lists' `currentRow()`, -1 for no selection.
   * `verseCount`: how many items the verse list holds.
   * `currentChapter`: the module-level `current_chapter`, the number of the
   * chapter last loaded into the verse list.
   */
  datatype Nav = Nav(chapterRow: int, verseRow: int, verseCount: nat, currentChapter: int)

  /**
   * What the widgets guarantee: a current row is -1 or an existing row, and
   * while a chapter row is selected the verse list holds that chapter and
   * `current_chapter` is its number. With no chapter row selected the verse
   * list keeps whatever it held.
   */
  predicate WidgetState(s: Nav, counts: seq<nat>)
  {
    && -1 <= s.chapterRow < |counts|
    && -1 <= s.verseRow < s.verseCount
    && (s.chapterRow >= 0 ==> s.verseCount == counts[s.chapterRow] && s.currentChapter == s.chapterRow + 1)
  }

  /**
   * `chapter_list_widget.setCurrentRow(row)`. A change to an existing row runs
   * `selected_chapter_changed`, which records the chapter number and refills
   * the verse list with nothing selected; any other row clears the selection,
   * and the handler then returns early. Re-selecting the current row does nothing.
   */
  function SelectChapterRow(s: Nav, counts: seq<nat>, row: int): (r: Nav)
    requires WidgetState(s, counts)
    ensures WidgetState(r, counts)
    ensures row == s.chapterRow ==> r == s
    ensures 0 <= row < |counts| && row != s.chapterRow ==> r.chapterRow == row && r.verseRow == -1
    ensures !(0 <= row < |counts|) ==> r == s.(chapterRow := -1)
  {
    if row == s.chapterRow then s
    else if 0 <= row < |counts| then Nav(row, -1, counts[row], row + 1)
    else s.(chapterRow := -1)
  }

  /** `verse_list_widget.setCurrentRow(row)`: a row that does not exist selects nothing. */
  function SelectVerseRow(s: Nav, row: int): (r: Nav)
    ensures r.verseRow == if 0 <= row < s.verseCount then row else -1
    ensures r == s.(verseRow := r.verseRow)
  {
    if 0 <= row < s.verseCount then s.(verseRow := row) else s.(verseRow := -1)
  }

  /**
   * `next_verse`: the next verse of the chapter; past its last verse, the
   * first verse of the next chapter; past the last verse of the last
   * chapter, nothing changes.
   */
  function NextVerse(s: Nav, counts: seq<nat>): (r: Nav)
    requires WidgetState(s, counts)
    ensures WidgetState(r, counts)
    ensures s.verseRow + 1 < s.verseCount ==> r == s.(verseRow := s.verseRow + 1)
    ensures s.verseRow + 1 == s.verseCount && s.chapterRow < |counts| - 1 ==>
      var c := s.chapterRow + 1;
      r == Nav(c, if counts[c] > 0 then 0 else -1, counts[c], c + 1)
    ensures s.verseRow + 1 == s.verseCount && s.chapterRow == |counts| - 1 ==> r == s
  {
    var index := s.verseRow + 1;
    if index == s.verseCount then
      if s.chapterRow < |counts| - 1 then
        SelectVerseRow(SelectChapterRow(s, counts, s.chapterRow + 1), 0)
      else
        s
    else
      SelectVerseRow(s, index)
  }

  /**
   * `prev_verse`: the previous verse of the chapter; before its first verse,
   * the last verse of the previous chapter; at the first verse of chapter 1,
   * nothing changes. The test is on `current_chapter`, so with no chapter row
   * selected but a later chapter last loaded, only the verse row moves, to
   * the last item of the list.
   */
  function PrevVerse(s: Nav, counts: seq<nat>): (r: Nav)
    requires WidgetState(s, counts)
    ensures WidgetState(r, counts)
    ensures s.verseRow >= 1 ==> r == s.(verseRow := s.verseRow - 1)
    ensures s.verseRow <= 0 && s.chapterRow >= 1 ==>
      var c := s.chapterRow - 1;
      r == Nav(c, counts[c] as int - 1, counts[c], c + 1)
    ensures s.verseRow <= 0 && s.chapterRow == 0 ==> r == s
    ensures s.verseRow <= 0 && s.chapterRow == -1 ==>
      r == if s.currentChapter > 1 then s.(verseRow := s.verseCount as int - 1) else s
  {
    var index := s.verseRow - 1;
    if index < 0 then
      if s.currentChapter > 1 then
        var t := SelectChapterRow(s, counts, s.chapterRow - 1);
        SelectVerseRow(t, t.verseCount as int - 1)
      else
        s
    else
      SelectVerseRow(s, index)
  }

  /** `(chapterRow, verseRow)` of `a` comes strictly before that of `b`. */
  predicate Before(a: Nav, b: Nav)
  {
    a.chapterRow < b.chapterRow || (a.chapterRow == b.chapterRow && a.verseRow < b.verseRow)
  }

  /** The last verse of the last chapter: where `next_verse` stops. */
  predicate AtEnd(s: Nav, counts: seq<nat>)
  {
    s.verseRow + 1 == s.verseCount && s.chapterRow == |counts| - 1
  }

  /** `next_verse` moves forward everywhere except at the end, where it stays. */
  lemma NextMovesForward(s: Nav, counts: seq<nat>)
    requires WidgetState(s, counts)
    ensures AtEnd(s, counts) <==> NextVerse(s, counts) == s
    ensures !AtEnd(s, counts) ==> Before(s, NextVerse(s, counts))
  {
  }

  /** `prev_verse` moves back from any selected verse except the first one of chapter 1. */
  lemma PrevMovesBack(s: Nav, counts: seq<nat>)
    requires WidgetState(s, counts) && s.chapterRow >= 0
    ensures s.verseRow <= 0 && s.chapterRow == 0 <==> PrevVerse(s, counts) == s
    ensures !(s.verseRow <= 0 && s.chapterRow == 0) ==> Before(PrevVerse(s, counts), s)
  {
  }

  /** Stepping forward and then back returns to a selected verse, unless it is the very last one. */
  lemma NextThenPrev(s: Nav, counts: seq<nat>)
    requires WidgetState(s, counts) && s.chapterRow >= 0 && s.verseRow >= 0
    requires !AtEnd(s, counts)
    ensures PrevVerse(NextVerse(s, counts), counts) == s
  {
  }

  /** Stepping back and then forward returns to a selected verse, unless it is the very first one. */
  lemma PrevThenNext(s: Nav, counts: seq<nat>)
    requires WidgetState(s, counts) && s.chapterRow >= 0 && s.verseRow >= 0
    requires !(s.verseRow == 0 && s.chapterRow == 0)
    ensures NextVerse(PrevVerse(s, counts), counts) == s
  {
  }

}

=== FILE: options.dfy ===
/** A value that may be absent: an unopened database cursor, a lookup that found nothing. */
module Options {

  datatype Option<+T> = None | Some(value: T)

}

=== FILE: screen.dfy ===
/**
 * The projector window (`ShowScreen`): its label text and the blank ("black") flag
 * that suppresses text while set. Geometry, colours and window flags are
 * not state the window's logic depends on.
 */
module Screen {

  datatype ShowScreen = ShowScreen(isBlack: bool, labelText: string)

  /** A new window shows nothing and is not blanked. */
  function NewScreen(): (s: ShowScreen)
    ensures !s.isBlack && s.labelText == ""
  {
    ShowScreen(false, "")
  }

  /** `setText`: shows `text` unless the window is blanked. */
  function SetText(s: ShowScreen, text: string): (r: ShowScreen)
    ensures r.isBlack == s.isBlack
    ensures !s.isBlack ==> r.labelText == text
    ensures s.isBlack ==> r == s
  {
    if !s.isBlack then s.(labelText := text) else s
  }

  /** `triggerBlack`: toggles the flag; entering blank mode clears the label, leaving it keeps the label. */
  function TriggerBlack(s: ShowScreen): (r: ShowScreen)
    ensures r.isBlack == !s.isBlack
    ensures r.isBlack ==> r.labelText == ""
    ensures !r.isBlack ==> r.labelText == s.labelText
  {
    if !s.isBlack then ShowScreen(true, "") else s.(isBlack := false)
  }

  /** A blanked window shows nothing. */
  predicate Blanked(s: ShowScreen)
  {
    s.isBlack ==> s.labelText == ""
  }

  /** One call on the window. */
  datatype Event = Text(text: string) | ToggleBlack

  function Step(s: ShowScreen, e: Event): ShowScreen
  {
    match e
    case Text(t) => SetText(s, t)
    case ToggleBlack => TriggerBlack(s)
  }

  /** The window after a sequence of calls, first call first. */
  function Run(s: ShowScreen, events: seq<Event>): ShowScreen
    decreases |events|
  {
    if |events| == 0 then s else Run(Step(s, events[0]), events[1..])
  }

  /** Toggling twice restores the flag and leaves the label empty. */
  lemma ToggleTwice(s: ShowScreen)
    ensures TriggerBlack(TriggerBlack(s)) == s.(labelText := "")
  {
  }

  /** Every window reachable from a new one shows nothing while blanked. */
  lemma {:induction false} RunKeepsBlanked(s: ShowScreen, events: seq<Event>)
    requires Blanked(s)
    ensures Blanked(Run(s, events))
    decreases |events|
  {
    if |events| > 0 {
      RunKeepsBlanked(Step(s, events[0]), events[1..]);
    }
  }

  /** While blanked, no sequence of `setText` calls changes the window. */
  lemma {:induction false} TextWhileBlack(s: ShowScreen, events: seq<Event>)
    requires s.isBlack
    requires forall k :: 0 <= k < |events| ==> events[k].Text?
    ensures Run(s, events) == s
    decreases |events|
  {
    if |events| > 0 {
      TextWhileBlack(Step(s, events[0]), events[1..]);
    }
  }

  /** When not blanked, the label shows the last text set, or the old label if none was. */
  lemma {:induction false} TextWhileShown(s: ShowScreen, events: seq<Event>)
    requires !s.isBlack
    requires forall k :: 0 <= k < |events| ==> events[k].Text?
    ensures !Run(s, events).isBlack
    ensures Run(s, events).labelText == if |events| == 0 then s.labelText else events[|events| - 1].text
    decreases |events|
  {
    if |events| > 0 {
      TextWhileShown(Step(s, events[0]), events[1..]);
    }
  }

}

=== FILE: selection.dfy ===
/**
 * The operator window's list filters: the book filter (`filter_books`), the
 * chapter and verse jump fields (`chapter_changed`, `verse_changed`) and the
 * reaction to a book being selected (`selected_book_changed`).
 */
module Selection {

  import opened Options
  import opened Strings
  import opened VerseStore
  import opened Navigation

  // ---------------------------------------------------------------------------
  // filter_books
  // ---------------------------------------------------------------------------

  /** `text.lower() in book.get_full_name().lower()`. */
  predicate BookMatches(b: BibleInfo, text: string)
  {
    ContainsIgnoringCase(b.FullName(), text)
  }

  /** The list comprehension of `filter_books`: matching full names, in book order. */
  function FilteredNames(books: seq<BibleInfo>, text: string): (r: seq<string>)
    ensures |r| <= |books|
    ensures forall k :: 0 <= k < |r| ==> ContainsIgnoringCase(r[k], text)
    ensures forall b :: b in books && BookMatches(b, text) ==> b.FullName() in r
    ensures forall x :: x in r ==> exists b :: b in books && BookMatches(b, text) && b.FullName() == x
  {
    if |books| == 0 then
      []
    else
      var rest := FilteredNames(books[1..], text);
      assert books == [books[0]] + books[1..];
      if BookMatches(books[0], text) then [books[0].FullName()] + rest else rest
  }

  /** Filtering two stretches of the book list filters each and keeps their order. */
  lemma {:induction false} FilteredNamesAppend(a: seq<BibleInfo>, b: seq<BibleInfo>, text: string)
    ensures FilteredNames(a + b, text) == FilteredNames(a, text) + FilteredNames(b, text)
  {
    if |a| == 0 {
      assert a + b == b;
    } else {
      assert (a + b)[1..] == a[1..] + b;
      FilteredNamesAppend(a[1..], b, text);
    }
  }

  /** Every string contains the empty one, so an empty filter lists every book. */
  lemma {:induction false} EmptyFilterKeepsAll(books: seq<BibleInfo>)
    ensures FilteredNames(books, "") == seq(|books|, i requires 0 <= i < |books| => books[i].FullName())
  {
    if |books| > 0 {
      assert OccursAt(LowerString(""), LowerString(books[0].FullName()), 0);
      EmptyFilterKeepsAll(books[1..]);
    }
  }

  /** The book list after `filter_books`: its items and its current row. */
  datatype BookList = BookList(items: seq<string>, currentRow: int)

  /**
   * `filter_books`: the list is refilled with the matching names, and the
   * single remaining book is selected when exactly one is left.
   */
  function FilterBooks(books: seq<BibleInfo>, text: string): (r: BookList)
    ensures r.items == FilteredNames(books, text)
    ensures r.currentRow == (if |r.items| == 1 then 0 else -1)
  {
    var items := FilteredNames(books, text);
    BookList(items, if |items| == 1 then 0 else -1)
  }

  // ---------------------------------------------------------------------------
  // chapter_changed / verse_changed
  // ---------------------------------------------------------------------------

  /** Item `k` is the one and only item that starts with `text`. */
  predicate UniqueMatch(items: seq<string>, text: string, k: int)
  {
    && 0 <= k < |items|
    && StartsWithIgnoringCase(items[k], text)
    && forall j :: 0 <= j < |items| && j != k ==> !StartsWithIgnoringCase(items[j], text)
  }

  /**
   * `findItems(text, MatchStartsWith)`, then the row `setCurrentItem` selects
   * when exactly one item was found, or -1 (`setCurrentRow(-1)`) otherwise.
   */
  method JumpRow(items: seq<string>, text: string) returns (row: int)
    ensures row == -1 || UniqueMatch(items, text, row)
    ensures row == -1 <==> forall k :: !UniqueMatch(items, text, k)
  {
    var first := -1;
    var many := false;
    var i := 0;
    while i < |items|
      invariant 0 <= i <= |items|
      invariant first == -1 ==> !many && forall j :: 0 <= j < i ==> !StartsWithIgnoringCase(items[j], text)
      invariant first != -1 ==> 0 <= first < i && StartsWithIgnoringCase(items[first], text)
      invariant first != -1 ==> forall j :: 0 <= j < first ==> !StartsWithIgnoringCase(items[j], text)
      invariant many ==> exists j :: first < j < i && StartsWithIgnoringCase(items[j], text)
      invariant !many && first != -1 ==> forall j :: first < j < i ==> !StartsWithIgnoringCase(items[j], text)
    {
      if StartsWithIgnoringCase(items[i], text) {
        if first == -1 {
          first := i;
        } else {
          many := true;
        }
      }
      i := i + 1;
    }
    if first != -1 && !many {
      row := first;
    } else {
      row := -1;
      if first != -1 {
        var j :| first < j < |items| && StartsWithIgnoringCase(items[j], text);
        assert forall k :: UniqueMatch(items, text, k) ==> k == first && k == j;
      }
    }
  }

  /** `chapter_changed`: the typed text jumps the chapter list. */
  method ChapterChanged(s: Nav, counts: seq<nat>, labels: seq<string>, text: string) returns (r: Nav)
    requires WidgetState(s, counts) && |labels| == |counts|
    ensures WidgetState(r, counts)
    ensures r.chapterRow == -1 || UniqueMatch(labels, text, r.chapterRow)
    ensures r.chapterRow == -1 <==> forall k :: !UniqueMatch(labels, text, k)
    ensures r.chapterRow == -1 ==> r == s.(chapterRow := -1)
    ensures r.chapterRow == s.chapterRow ==> r == s
    ensures r.chapterRow != s.chapterRow && r.chapterRow >= 0 ==>
      r.verseRow == -1 && r.verseCount == counts[r.chapterRow] && r.currentChapter == r.chapterRow + 1
  {
    var row := JumpRow(labels, text);
    r := SelectChapterRow(s, counts, row);
  }

  /** `verse_changed`: the typed text jumps the verse list. */
  method VerseChanged(s: Nav, counts: seq<nat>, items: seq<string>, text: string) returns (r: Nav)
    requires WidgetState(s, counts) && |items| == s.verseCount
    ensures WidgetState(r, counts)
    ensures r == s.(verseRow := r.verseRow)
    ensures r.verseRow == -1 || UniqueMatch(items, text, r.verseRow)
    ensures r.verseRow == -1 <==> forall k :: !UniqueMatch(items, text, k)
  {
    var row := JumpRow(items, text);
    r := SelectVerseRow(s, row);
  }

  /**
   * With `counts` read from the database, selecting an existing chapter row
   * loads chapter `row + 1`, and the verse list then holds one item per verse
   * `get_verses` returns for it.
   */
  lemma ChapterRowLoadsVerses(s: Nav, counts: seq<nat>, cursor: Cursor, book: int, row: int)
    requires WidgetState(s, counts) && IsVerseCounts(counts, cursor, book)
    requires 0 <= row < |counts|
    ensures
      var r := SelectChapterRow(s, counts, row);
      && r.chapterRow == row && r.currentChapter == row + 1
      && r.verseCount == |GetVerses(cursor, book, row + 1)|
      && |counts| == GetChapterNumber(cursor, book)
  {
  }

  /**
   * Typing the number `k` into the chapter field of a book with `n` chapters
   * selects chapter `k` exactly when no other chapter number starts with the
   * digits of `k`, which is when `n < 10 * k`.
   */
  lemma ChapterJumpUnique(n: nat, k: nat)
    requires 1 <= k <= n
    ensures UniqueMatch(ChapterLabels(n), Decimal(k), k - 1) <==> n < 10 * k
  {
    var labels := ChapterLabels(n);
    forall j | 0 <= j < n
      ensures labels[j] == Decimal(j + 1)
      ensures StartsWithIgnoringCase(labels[j], Decimal(k)) <==> IsPrefix(Decimal(k), Decimal(j + 1))
    {
      DecimalOfValue(labels[j]);
      LowerDecimal(j + 1);
      LowerDecimal(k);
    }
    if n < 10 * k {
      forall m | 1 <= m <= n && m != k
        ensures !IsPrefix(Decimal(k), Decimal(m))
      {
        if IsPrefix(Decimal(k), Decimal(m)) {
          DecimalPrefixBound(k, m);
        }
      }
      assert IsPrefix(Decimal(k), Decimal(k));
    } else {
      DecimalTimesTen(k);
      assert IsPrefix(Decimal(k), Decimal(10 * k));
      assert StartsWithIgnoringCase(labels[10 * k - 1], Decimal(k));
    }
  }

  // ---------------------------------------------------------------------------
  // selected_book_changed
  // ---------------------------------------------------------------------------

  /** `books[k]` is the first book whose full name is `name`. */
  predicate FirstNamed(books: seq<BibleInfo>, name: string, k: int)
  {
    && 0 <= k < |books|
    && books[k].FullName() == name
    && forall j :: 0 <= j < k ==> books[j].FullName() != name
  }

  /** `[book.id for book in books if book.get_full_name() == name][0]`, `None` where that raises. */
  function BookIdByName(books: seq<BibleInfo>, name: string): (r: Option<int>)
    ensures r.None? <==> forall b :: b in books ==> b.FullName() != name
    ensures r.Some? ==> exists k :: FirstNamed(books, name, k) && books[k].id == r.value
  {
    if |books| == 0 then
      None
    else if books[0].FullName() == name then
      Some(books[0].id)
    else
      var r := BookIdByName(books[1..], name);
      assert books == [books[0]] + books[1..];
      if r.Some? then
        var k :| FirstNamed(books[1..], name, k) && books[1..][k].id == r.value;
        assert books[k + 1] == books[1..][k];
        assert FirstNamed(books, name, k + 1);
        r
      else
        r
  }

  /** The outcome of `selected_book_changed`. */
  datatype BookChange =
    | Ignored                                                   // row -1: the handler returns at once
    | NoSuchBook                                                // the item names no book: the `[0]` raises
    | Selected(book: int, chapterItems: seq<string>, nav: Nav)  // `current_book`, the refilled chapter list, the lists

  /**
   * `selected_book_changed(index)`: the book whose full name is the item's
   * text becomes current and the chapter list is refilled with "1".."n",
   * `n` being the book's number of distinct chapters. `clear()` leaves the
   * chapter list with no current row, and `addItems` does not select one, so
   * the verse list and `current_chapter` keep what the old book loaded.
   */
  function SelectedBookChanged(books: seq<BibleInfo>, items: seq<string>, cursor: Cursor, s: Nav, index: int): (r: BookChange)
    requires index < |items|
    ensures r.Ignored? <==> index < 0
    ensures r.NoSuchBook? <==> index >= 0 && forall b :: b in books ==> b.FullName() != items[index]
    ensures r.Selected? ==> exists b :: b in books && b.FullName() == items[index] && b.id == r.book
    ensures r.Selected? ==> exists k :: FirstNamed(books, items[index], k) && books[k].id == r.book
    ensures r.Selected? ==> r.chapterItems == ChapterLabels(GetChapterNumber(cursor, r.book))
    ensures r.Selected? && cursor.Some? ==> |r.chapterItems| == |ChapterSet(cursor.value.verses, r.book)|
    ensures r.Selected? && cursor.None? ==> r.chapterItems == []
    ensures r.Selected? ==> r.nav == s.(chapterRow := -1)
  {
    if index < 0 then
      Ignored
    else
      match BookIdByName(books, items[index])
      case None => NoSuchBook
      case Some(id) => Selected(id, ChapterLabels(GetChapterNumber(cursor, id)), s.(chapterRow := -1))
  }

  /**
   * After a book change the lists again satisfy the widget invariant, now
   * against the verse counts of the new book's chapters, so navigation goes
   * on from there.
   */
  lemma BookChangeKeepsWidgetState(books: seq<BibleInfo>, items: seq<string>, cursor: Cursor, s: Nav,
                                   oldCounts: seq<nat>, newCounts: seq<nat>, index: int)
    requires index < |items| && WidgetState(s, oldCounts)
    requires SelectedBookChanged(books, items, cursor, s, index).Selected?
    requires IsVerseCounts(newCounts, cursor, SelectedBookChanged(books, items, cursor, s, index).book)
    ensures
      var r := SelectedBookChanged(books, items, cursor, s, index);
      && WidgetState(r.nav, newCounts)
      && |newCounts| == |r.chapterItems|
  {
  }

  /**
   * When the filter leaves a single book, selecting it makes current a book
   * whose full name contains the typed text.
   */
  lemma FilterThenSelect(books: seq<BibleInfo>, text: string, cursor: Cursor, s: Nav)
    requires FilterBooks(books, text).currentRow == 0
    ensures
      var list := FilterBooks(books, text);
      var change := SelectedBookChanged(books, list.items, cursor, s, 0);
      change.Selected? && exists b :: b in books && b.id == change.book && BookMatches(b, text)
  {
    var list := FilterBooks(books, text);
    assert list.items[0] in list.items;
    var b :| b in books && BookMatches(b, text) && b.FullName() == list.items[0];
  }

}

=== FILE: strings.dfy ===
/**
 * Character classes and small string operations the application relies on:
 * Python's whitespace class and lower-casing, substring and prefix tests,
 * `str.removeprefix`, and `str(n)` for integers.
 */
module Strings {

  /** Python's `str.isspace()`; the same class is what `\s` matches in a `str` regex. */
  predicate IsSpace(c: char)
  {
    || '\t' <= c <= '\r'
    || '\U{001C}' <= c <= ' '
    || c == '\U{0085}' || c == '\U{00A0}' || c == '\U{1680}'
    || '\U{2000}' <= c <= '\U{200A}'
    || c == '\U{2028}' || c == '\U{2029}' || c == '\U{202F}' || c == '\U{205F}'
    || c == '\U{3000}'
  }

  /**
   * Python's `str.lower()` on the characters it maps one-to-one in the Latin
   * blocks: ASCII, Latin-1 and Latin Extended-A (which hold the Hungarian
   * accented capitals of the book names). Other characters are unchanged.
   */
  function Lower(c: char): (r: char)
    ensures 'A' <= c <= 'Z' ==> r as int == c as int + 32
    ensures ('\U{00C0}' <= c <= '\U{00DE}' && c != '\U{00D7}') ==> r as int == c as int + 32
    ensures c < '\U{0100}' && !('A' <= c <= 'Z') && !('\U{00C0}' <= c <= '\U{00DE}' && c != '\U{00D7}') ==> r == c
    ensures IsSpace(c) ==> r == c
    ensures !IsSpace(c) ==> !IsSpace(r)
    ensures r != c ==> c != '\U{0178}' ==> c < r
  {
    if 'A' <= c <= 'Z' || ('\U{00C0}' <= c <= '\U{00DE}' && c != '\U{00D7}') then
      (c as int + 32) as char
    else if ('\U{0100}' <= c <= '\U{012F}' || '\U{0132}' <= c <= '\U{0137}' || '\U{014A}' <= c <= '\U{0177}')
            && (c as int) % 2 == 0 then
      (c as int + 1) as char
    else if ('\U{0139}' <= c <= '\U{0148}' || '\U{0179}' <= c <= '\U{017E}') && (c as int) % 2 == 1 then
      (c as int + 1) as char
    else if c == '\U{0178}' then
      '\U{00FF}'
    else
      c
  }

  /** Lower-casing a lower-cased character changes nothing. */
  lemma LowerIdempotent(c: char)
    ensures Lower(Lower(c)) == Lower(c)
  {
  }

  /** `str.lower()`: every character lower-cased, in place. */
  function LowerString(s: string): (r: string)
    ensures |r| == |s|
    ensures forall i :: 0 <= i < |s| ==> r[i] == Lower(s[i])
  {
    seq(|s|, i requires 0 <= i < |s| => Lower(s[i]))
  }

  predicate IsPrefix(p: string, s: string)
  {
    |p| <= |s| && s[..|p|] == p
  }

  /** `needle` occurs in `hay` starting at index `i`. */
  predicate OccursAt(needle: string, hay: string, i: int)
  {
    0 <= i && i + |needle| <= |hay| && hay[i..i + |needle|] == needle
  }

  ghost predicate Occurs(needle: string, hay: string)
  {
    exists i :: OccursAt(needle, hay, i)
  }

  /** Python's `needle in hay` for strings: a left-to-right search for an occurrence. */
  function Contains(hay: string, needle: string): (r: bool)
    ensures r <==> Occurs(needle, hay)
    decreases |hay|
  {
    if IsPrefix(needle, hay) then
      assert OccursAt(needle, hay, 0);
      true
    else if |hay| == 0 then
      false
    else
      var r := Contains(hay[1..], needle);
      if r then
        var i :| OccursAt(needle, hay[1..], i);
        assert hay[1..][i..i + |needle|] == hay[i + 1..i + 1 + |needle|];
        assert OccursAt(needle, hay, i + 1);
        true
      else
        assert forall i :: OccursAt(needle, hay, i) ==> i == 0 || OccursAt(needle, hay[1..], i - 1) by {
          forall i | OccursAt(needle, hay, i) && i != 0
            ensures OccursAt(needle, hay[1..], i - 1)
          {
            assert hay[1..][i - 1..i - 1 + |needle|] == hay[i..i + |needle|];
          }
        }
        false
  }

  /** Index of the first occurrence of `c` in `s`. */
  function FirstIndex(s: string, c: char): (k: nat)
    requires c in s
    ensures k < |s| && s[k] == c
    ensures forall j :: 0 <= j < k ==> s[j] != c
  {
    if s[0] == c then 0 else 1 + FirstIndex(s[1..], c)
  }

  /** `text.lower() in name.lower()`. */
  predicate ContainsIgnoringCase(hay: string, needle: string)
  {
    Contains(LowerString(hay), LowerString(needle))
  }

  /** Qt's `MatchStartsWith` without `MatchCaseSensitive`: a prefix test that ignores case. */
  predicate StartsWithIgnoringCase(s: string, p: string)
  {
    IsPrefix(LowerString(p), LowerString(s))
  }

  /** Python's `s.removeprefix(p)`. */
  function RemovePrefix(s: string, p: string): (r: string)
    ensures IsPrefix(p, s) ==> p + r == s
    ensures !IsPrefix(p, s) ==> r == s
  {
    if IsPrefix(p, s) then
      assert s == s[..|p|] + s[|p|..];
      s[|p|..]
    else
      s
  }

  predicate IsDigit(c: char)
  {
    '0' <= c <= '9'
  }

  function DigitChar(d: nat): (c: char)
    requires d < 10
    ensures IsDigit(c)
  {
    ('0' as int + d) as char
  }

  function DigitValue(c: char): nat
  {
    if IsDigit(c) then c as int - '0' as int else 0
  }

  /** A decimal numeral as `str` prints it: digits only, no leading zero except in "0". */
  predicate IsCanonicalDecimal(s: string)
  {
    && |s| >= 1
    && (forall i :: 0 <= i < |s| ==> IsDigit(s[i]))
    && (s[0] == '0' ==> |s| == 1)
  }

  /** Python's `str(n)` for a non-negative integer. */
  function Decimal(n: nat): (r: string)
    ensures IsCanonicalDecimal(r)
    ensures n < 10 <==> |r| == 1
    decreases n
  {
    if n < 10 then [DigitChar(n)] else Decimal(n / 10) + [DigitChar(n % 10)]
  }

  /** The number a string of decimal digits denotes. */
  function DecimalValue(s: string): nat
  {
    if |s| == 0 then 0 else DecimalValue(s[..|s| - 1]) * 10 + DigitValue(s[|s| - 1])
  }

  /** Python's `str(i)` for any integer. */
  function IntToString(i: int): (r: string)
    ensures i >= 0 ==> IsCanonicalDecimal(r) && DecimalValue(r) == i
    ensures i < 0 ==> |r| >= 2 && r[0] == '-' && IsCanonicalDecimal(r[1..]) && DecimalValue(r[1..]) == -i
  {
    DecimalRoundTrip(if i < 0 then -i else i);
    if i < 0 then "-" + Decimal(-i) else Decimal(i)
  }

  /** Reading back what `Decimal` printed gives the number. */
  lemma {:induction false} DecimalRoundTrip(n: nat)
    ensures DecimalValue(Decimal(n)) == n
    decreases n
  {
    var s := Decimal(n);
    if n >= 10 {
      DecimalRoundTrip(n / 10);
      assert s[..|s| - 1] == Decimal(n / 10);
    }
  }

  /** Printing the value of a canonical numeral gives the numeral back. */
  lemma {:induction false} DecimalOfValue(s: string)
    requires IsCanonicalDecimal(s)
    ensures Decimal(DecimalValue(s)) == s
    decreases |s|
  {
    if |s| > 1 {
      var p := s[..|s| - 1];
      assert IsCanonicalDecimal(p);
      DecimalOfValue(p);
      DecimalValuePositive(p);
      assert DecimalValue(s) / 10 == DecimalValue(p);
      assert DecimalValue(s) % 10 == DigitValue(s[|s| - 1]);
    }
  }

  lemma {:induction false} DecimalValuePositive(s: string)
    requires IsCanonicalDecimal(s) && s[0] != '0'
    ensures DecimalValue(s) >= 1
    decreases |s|
  {
    if |s| > 1 {
      DecimalValuePositive(s[..|s| - 1]);
    }
  }

  /** Two numbers print the same only if they are equal. */
  lemma DecimalInjective(m: nat, n: nat)
    requires Decimal(m) == Decimal(n)
    ensures m == n
  {
    DecimalRoundTrip(m);
    DecimalRoundTrip(n);
  }

  /** Appending a zero digit multiplies by ten. */
  lemma DecimalTimesTen(k: nat)
    requires k >= 1
    ensures Decimal(10 * k) == Decimal(k) + "0"
  {
    assert (10 * k) / 10 == k && (10 * k) % 10 == 0;
  }

  /** A different number whose numeral extends that of `k` is at least ten times `k`. */
  lemma {:induction false} DecimalPrefixBound(k: nat, j: nat)
    requires IsPrefix(Decimal(k), Decimal(j)) && j != k
    ensures j >= 10 * k
    decreases j
  {
    var dk, dj := Decimal(k), Decimal(j);
    if |dk| == |dj| {
      assert dj == dk;
      DecimalInjective(k, j);
    } else {
      assert j >= 10;
      var d := Decimal(j / 10);
      assert dj == d + [DigitChar(j % 10)];
      assert d[..|dk|] == dj[..|dk|];
      if j / 10 != k {
        DecimalPrefixBound(k, j / 10);
      }
    }
  }

  lemma LowerDecimal(n: nat)
    ensures LowerString(Decimal(n)) == Decimal(n)
  {
  }

  /** Putting the head of `a` back in front of `a[1..] + b` gives `a + b`. */
  lemma ConsAppend<T>(a: seq<T>, b: seq<T>)
    requires |a| > 0
    ensures [a[0]] + (a[1..] + b) == a + b
  {
  }

}

=== FILE: text_clean.dfy ===
/**
 * The verse-text sanitiser applied to every row `get_verses` returns:
 *
 *   re.sub(r"\s{2,}", " ", re.sub(r"<[^>]*>|\[[^\]]*\]", "", text)).strip()
 *
 * written as three passes over `string`: markup removal, whitespace-run
 * collapsing and trimming.
 */
module TextClean {

  import opened Strings

  /** Every `<` has no `>` anywhere after it. */
  predicate NoAngleSpan(s: string)
  {
    forall i, j :: 0 <= i < j < |s| && s[i] == '<' ==> s[j] != '>'
  }

  /** Every `[` has no `]` anywhere after it. */
  predicate NoBracketSpan(s: string)
  {
    forall i, j :: 0 <= i < j < |s| && s[i] == '[' ==> s[j] != ']'
  }

  /** Nothing the markup pattern could still match. */
  predicate MarkupFree(s: string)
  {
    NoAngleSpan(s) && NoBracketSpan(s)
  }

  /** No two whitespace characters stand next to each other. */
  predicate NoDoubleSpace(s: string)
  {
    forall i :: 0 < i < |s| ==> !(IsSpace(s[i - 1]) && IsSpace(s[i]))
  }

  /** Neither the first nor the last character is whitespace. */
  predicate Trimmed(s: string)
  {
    |s| > 0 ==> !IsSpace(s[0]) && !IsSpace(s[|s| - 1])
  }

  /** What the sanitiser promises about its output. */
  predicate Clean(s: string)
  {
    MarkupFree(s) && NoDoubleSpace(s) && Trimmed(s)
  }

  /**
   * `re.sub(r"<[^>]*>|\[[^\]]*\]", "", s)`: scanning left to right, a `<`
   * that has a `>` somewhere after it starts a match running to the first
   * such `>`, and likewise `[` up to the first `]`; matches are deleted and
   * the scan resumes after them. A `<` or `[` with no closer after it is
   * ordinary text.
   */
  function StripMarkup(s: string): (r: string)
    ensures |r| <= |s|
    ensures forall k :: 0 <= k < |r| ==> r[k] in s
    ensures MarkupFree(r)
    decreases |s|
  {
    if |s| == 0 then
      ""
    else if s[0] == '<' && '>' in s[1..] then
      var j := FirstIndex(s[1..], '>') + 2;
      assert s[1..][j - 1..] == s[j..];
      var r := StripMarkup(s[j..]);
      ElementsOfSuffix(s, j, r);
      r
    else if s[0] == '[' && ']' in s[1..] then
      var j := FirstIndex(s[1..], ']') + 2;
      assert s[1..][j - 1..] == s[j..];
      var r := StripMarkup(s[j..]);
      ElementsOfSuffix(s, j, r);
      r
    else
      var tail := StripMarkup(s[1..]);
      KeepHead(s, tail);
      [s[0]] + tail
  }

  /** What is drawn from a suffix of `s` is drawn from `s`. */
  lemma ElementsOfSuffix(s: string, j: nat, r: string)
    requires j <= |s|
    requires forall k :: 0 <= k < |r| ==> r[k] in s[j..]
    ensures forall k :: 0 <= k < |r| ==> r[k] in s
  {
    forall k | 0 <= k < |r| ensures r[k] in s {
      var m :| 0 <= m < |s[j..]| && s[j..][m] == r[k];
      assert s[j + m] == r[k];
    }
  }

  /**
   * Keeping a first character that opens no span in front of a markup-free
   * string drawn from the rest of `s` gives a markup-free string drawn from `s`.
   */
  lemma KeepHead(s: string, tail: string)
    requires |s| > 0
    requires s[0] == '<' ==> '>' !in s[1..]
    requires s[0] == '[' ==> ']' !in s[1..]
    requires MarkupFree(tail)
    requires forall k :: 0 <= k < |tail| ==> tail[k] in s[1..]
    ensures MarkupFree([s[0]] + tail)
    ensures forall k :: 0 <= k < |tail| + 1 ==> ([s[0]] + tail)[k] in s
  {
    var r := [s[0]] + tail;
    assert forall k :: 0 < k < |r| ==> r[k] == tail[k - 1];
    forall k | 0 <= k < |r| ensures r[k] in s {
      if k > 0 {
        var m :| 0 <= m < |s[1..]| && s[1..][m] == r[k];
        assert s[1 + m] == r[k];
      }
    }
    assert s[0] == '<' ==> forall k :: 0 <= k < |tail| ==> tail[k] != '>';
    assert s[0] == '[' ==> forall k :: 0 <= k < |tail| ==> tail[k] != ']';
  }

  /** Length of the run of whitespace that `s` starts with. */
  function SpaceRun(s: string): (n: nat)
    ensures n <= |s|
    ensures forall i :: 0 <= i < n ==> IsSpace(s[i])
    ensures n < |s| ==> !IsSpace(s[n])
  {
    if |s| > 0 && IsSpace(s[0]) then 1 + SpaceRun(s[1..]) else 0
  }

  /**
   * `re.sub(r"\s{2,}", " ", s)`: each maximal run of two or more whitespace
   * characters becomes one space; a lone whitespace character is kept as it is.
   */
  function CollapseSpaces(s: string): (r: string)
    ensures NoDoubleSpace(r)
    ensures |r| <= |s|
    ensures |s| > 0 ==> |r| > 0 && (IsSpace(r[0]) <==> IsSpace(s[0]))
    ensures |s| > 0 && !IsSpace(s[0]) ==> r[0] == s[0]
    ensures forall k :: 0 <= k < |r| ==> r[k] in s || r[k] == ' '
    decreases |s|
  {
    if |s| == 0 then
      ""
    else if !IsSpace(s[0]) then
      var tail := CollapseSpaces(s[1..]);
      var r := [s[0]] + tail;
      assert forall k :: 0 < k < |r| ==> r[k] == tail[k - 1];
      assert forall k :: 0 <= k < |r| ==> r[k] in s || r[k] == ' ' by {
        forall k | 0 < k < |r| ensures r[k] in s || r[k] == ' ' {
          assert tail[k - 1] in s[1..] || tail[k - 1] == ' ';
        }
      }
      r
    else
      var n := SpaceRun(s);
      var tail := CollapseSpaces(s[n..]);
      var r := (if n >= 2 then " " else s[..1]) + tail;
      assert forall k :: 0 < k < |r| ==> r[k] == tail[k - 1];
      assert forall k :: 0 <= k < |r| ==> r[k] in s || r[k] == ' ' by {
        forall k | 0 < k < |r| ensures r[k] in s || r[k] == ' ' {
          assert tail[k - 1] in s[n..] || tail[k - 1] == ' ';
        }
      }
      r
  }

  /** `s.lstrip()`: drops the leading whitespace and nothing else. */
  function TrimStart(s: string): (r: string)
    ensures |r| <= |s| && r == s[|s| - |r|..]
    ensures forall i :: 0 <= i < |s| - |r| ==> IsSpace(s[i])
    ensures |r| > 0 ==> !IsSpace(r[0])
  {
    if |s| > 0 && IsSpace(s[0]) then TrimStart(s[1..]) else s
  }

  /** `s.rstrip()`: drops the trailing whitespace and nothing else. */
  function TrimEnd(s: string): (r: string)
    ensures |r| <= |s| && r == s[..|r|]
    ensures forall i :: |r| <= i < |s| ==> IsSpace(s[i])
    ensures |r| > 0 ==> !IsSpace(r[|r| - 1])
  {
    if |s| > 0 && IsSpace(s[|s| - 1]) then TrimEnd(s[..|s| - 1]) else s
  }

  /** `r` is `s[i..i + |r|]` and everything of `s` outside that slice is whitespace. */
  predicate IsTrimOf(r: string, s: string, i: int)
  {
    && 0 <= i <= |s| - |r|
    && r == s[i..i + |r|]
    && (forall k :: 0 <= k < i ==> IsSpace(s[k]))
    && (forall k :: i + |r| <= k < |s| ==> IsSpace(s[k]))
  }

  /** `s.strip()`: the longest slice of `s` that neither starts nor ends with whitespace. */
  function Trim(s: string): (r: string)
    ensures Trimmed(r)
    ensures exists i :: IsTrimOf(r, s, i)
  {
    var a := TrimStart(s);
    var r := TrimEnd(a);
    TrimSlices(s, a, r);
    assert |r| > 0 ==> r[0] == a[0];
    r
  }

  /** Dropping leading whitespace and then trailing whitespace leaves a slice with only whitespace around it. */
  lemma TrimSlices(s: string, a: string, r: string)
    requires |a| <= |s| && a == s[|s| - |a|..]
    requires forall i :: 0 <= i < |s| - |a| ==> IsSpace(s[i])
    requires |r| <= |a| && r == a[..|r|]
    requires forall i :: |r| <= i < |a| ==> IsSpace(a[i])
    ensures IsTrimOf(r, s, |s| - |a|)
  {
    var i := |s| - |a|;
    forall k | i + |r| <= k < |s|
      ensures IsSpace(s[k])
    {
      assert s[k] == a[k - i];
    }
  }

  /** The text transform of `get_verses`. */
  function Sanitize(s: string): (r: string)
    ensures Clean(r)
    ensures |r| <= |s|
  {
    var collapsed := CollapseSpaces(StripMarkup(s));
    CollapseKeepsMarkupFree(StripMarkup(s));
    TrimKeepsClean(collapsed);
    Trim(collapsed)
  }

  /** Trimming a markup-free, single-spaced string gives a clean one. */
  lemma TrimKeepsClean(s: string)
    requires MarkupFree(s) && NoDoubleSpace(s)
    ensures Clean(Trim(s))
  {
    var r := Trim(s);
    var i :| IsTrimOf(r, s, i);
    SliceKeepsClean(s, i, r);
  }

  /** A stretch `t` of a markup-free, single-spaced string, found at index `i`, is again so. */
  lemma SliceKeepsClean(s: string, i: int, t: string)
    requires 0 <= i <= |s| - |t| && t == s[i..i + |t|]
    ensures MarkupFree(s) ==> MarkupFree(t)
    ensures NoDoubleSpace(s) ==> NoDoubleSpace(t)
  {
    assert forall k :: 0 <= k < |t| ==> t[k] == s[i + k];
  }

  /** Collapsing whitespace introduces only spaces, so it cannot create a markup span. */
  lemma {:induction false} CollapseKeepsMarkupFree(s: string)
    requires MarkupFree(s)
    ensures MarkupFree(CollapseSpaces(s))
    decreases |s|
  {
    if |s| > 0 {
      var r := CollapseSpaces(s);
      var n := if IsSpace(s[0]) then SpaceRun(s) else 1;
      var tail := CollapseSpaces(s[n..]);
      SliceKeepsClean(s, n, s[n..]);
      CollapseKeepsMarkupFree(s[n..]);
      assert r == [r[0]] + tail;
      if r[0] == '<' || r[0] == '[' {
        assert r[0] == s[0] && n == 1;
        MarkupFreeTail(s);
        forall k | 0 <= k < |tail|
          ensures r[0] == '<' ==> tail[k] != '>'
          ensures r[0] == '[' ==> tail[k] != ']'
        {
          if tail[k] != ' ' {
            assert tail[k] in s[1..];
          }
        }
      }
      ConsMarkupFree(r[0], tail);
    }
  }

  /** A character that opens no span, in front of a markup-free string, keeps it markup-free. */
  lemma ConsMarkupFree(c: char, t: string)
    requires MarkupFree(t)
    requires c == '<' ==> '>' !in t
    requires c == '[' ==> ']' !in t
    ensures MarkupFree([c] + t)
  {
    var r := [c] + t;
    assert forall k :: 0 < k < |r| ==> r[k] == t[k - 1];
  }

  /** Markup removal leaves a markup-free string as it is. */
  lemma {:induction false} StripMarkupOfFree(s: string)
    requires MarkupFree(s)
    ensures StripMarkup(s) == s
    decreases |s|
  {
    if |s| > 0 {
      MarkupFreeTail(s);
      StripMarkupOfFree(s[1..]);
      StripMarkupFixedHead(s);
    }
  }

  /** A first character that opens no markup span is kept, and the scan goes on after it. */
  lemma StripMarkupPlainHead(s: string)
    requires |s| > 0
    requires s[0] == '<' ==> '>' !in s[1..]
    requires s[0] == '[' ==> ']' !in s[1..]
    ensures StripMarkup(s) == [s[0]] + StripMarkup(s[1..])
  {
  }

  /** ... so a string whose tail is left as it is is left as it is too. */
  lemma StripMarkupFixedHead(s: string)
    requires |s| > 0
    requires s[0] == '<' ==> '>' !in s[1..]
    requires s[0] == '[' ==> ']' !in s[1..]
    requires StripMarkup(s[1..]) == s[1..]
    ensures StripMarkup(s) == s
  {
    StripMarkupPlainHead(s);
    assert s == [s[0]] + s[1..];
  }

  /** The tail of a markup-free string is markup-free, and its first character opens no span. */
  lemma MarkupFreeTail(s: string)
    requires |s| > 0 && MarkupFree(s)
    ensures MarkupFree(s[1..])
    ensures s[0] == '<' ==> '>' !in s[1..]
    ensures s[0] == '[' ==> ']' !in s[1..]
  {
    SliceKeepsClean(s, 1, s[1..]);
    forall k | 0 <= k < |s[1..]|
      ensures s[0] == '<' ==> s[1..][k] != '>'
      ensures s[0] == '[' ==> s[1..][k] != ']'
    {
      assert s[1..][k] == s[k + 1];
    }
  }

  /** Whitespace collapsing leaves a single-spaced string as it is. */
  lemma {:induction false} CollapseOfSingleSpaced(s: string)
    requires NoDoubleSpace(s)
    ensures CollapseSpaces(s) == s
    decreases |s|
  {
    if |s| > 0 {
      SliceKeepsClean(s, 1, s[1..]);
      CollapseOfSingleSpaced(s[1..]);
      if IsSpace(s[0]) {
        assert SpaceRun(s) == 1 by {
          if |s| > 1 {
            assert !IsSpace(s[1]);
          }
        }
        assert s[1..] == s[SpaceRun(s)..];
      }
      assert s == [s[0]] + s[1..];
    }
  }

  /** Trimming leaves a string with no outer whitespace as it is. */
  lemma TrimOfTrimmed(s: string)
    requires Trimmed(s)
    ensures Trim(s) == s
  {
    assert TrimStart(s) == s;
    assert TrimEnd(s) == s;
  }

  /** A string is a fixed point of the sanitiser exactly when it is clean. */
  lemma SanitizeFixedPoints(s: string)
    ensures Sanitize(s) == s <==> Clean(s)
  {
    if Clean(s) {
      StripMarkupOfFree(s);
      CollapseOfSingleSpaced(s);
      TrimOfTrimmed(s);
    }
  }

  /** Sanitising twice is the same as sanitising once. */
  lemma SanitizeIdempotent(s: string)
    ensures Sanitize(Sanitize(s)) == Sanitize(s)
  {
    SanitizeFixedPoints(Sanitize(s));
  }

  /**
   * A `<…>` tag whose body holds no `>`, or a `[…]` annotation whose body
   * holds no `]`, is deleted together with its brackets.
   */
  lemma StripMarkupDropsSpan(open: char, close: char, body: string, rest: string)
    requires (open == '<' && close == '>') || (open == '[' && close == ']')
    requires close !in body
    ensures StripMarkup([open] + body + [close] + rest) == StripMarkup(rest)
  {
    var s := [open] + body + [close] + rest;
    assert s[1..] == body + [close] + rest;
    var k := FirstIndex(s[1..], close);
    assert s[1..][|body|] == close;
    assert k == |body|;
    assert s[1..][k + 1..] == rest;
  }

  /** Text holding no `<` and no `[` passes through markup removal untouched. */
  lemma {:induction false} StripMarkupKeepsPlain(p: string, t: string)
    requires '<' !in p && '[' !in p
    ensures StripMarkup(p + t) == p + StripMarkup(t)
    decreases |p|
  {
    if |p| > 0 {
      var s := p + t;
      assert s[0] == p[0] && s[1..] == p[1..] + t;
      assert '<' !in p[1..] && '[' !in p[1..];
      StripMarkupKeepsPlain(p[1..], t);
      StripMarkupPlainHead(s);
      ConsAppend(p, StripMarkup(t));
    } else {
      assert p + t == t;
    }
  }

  /** A word (no whitespace) passes through whitespace collapsing untouched. */
  lemma {:induction false} CollapseKeepsWord(w: string, t: string)
    requires forall k :: 0 <= k < |w| ==> !IsSpace(w[k])
    ensures CollapseSpaces(w + t) == w + CollapseSpaces(t)
    decreases |w|
  {
    if |w| > 0 {
      var s := w + t;
      assert s[0] == w[0] && s[1..] == w[1..] + t;
      assert !IsSpace(s[0]);
      CollapsePlainHead(s);
      CollapseKeepsWord(w[1..], t);
      ConsAppend(w, CollapseSpaces(t));
    } else {
      assert w + t == t;
    }
  }

  /** A first character that is not whitespace is kept, and collapsing goes on after it. */
  lemma CollapsePlainHead(s: string)
    requires |s| > 0 && !IsSpace(s[0])
    ensures CollapseSpaces(s) == [s[0]] + CollapseSpaces(s[1..])
  {
  }

  /** A whitespace run before a non-space becomes one space if it is two or more long, else stays. */
  lemma CollapseRun(run: string, t: string)
    requires |run| > 0 && forall k :: 0 <= k < |run| ==> IsSpace(run[k])
    requires |t| > 0 ==> !IsSpace(t[0])
    ensures CollapseSpaces(run + t) == (if |run| >= 2 then " " else run) + CollapseSpaces(t)
  {
    var s := run + t;
    SpaceRunOf(run, t);
    assert s[|run|..] == t;
    assert |run| == 1 ==> s[..1] == run;
  }

  lemma {:induction false} SpaceRunOf(run: string, t: string)
    requires forall k :: 0 <= k < |run| ==> IsSpace(run[k])
    requires |t| > 0 ==> !IsSpace(t[0])
    ensures SpaceRun(run + t) == |run|
    decreases |run|
  {
    if |run| > 0 {
      assert (run + t)[1..] == run[1..] + t;
      SpaceRunOf(run[1..], t);
    }
  }

}

=== FILE: verse_store.dfy ===
/**
 * The read-only queries against one translation database. The SQLite file
 * is replaced by its two tables held as row sequences in storage order, and
 * the module-level `cursor` by an `Option` of those tables: `None` until a
 * database has been opened.
 */
module VerseStore {

  import opened Options
  import opened Strings
  import opened TextClean

  /** A row of the `books` table and the `BibleInfo` object built from it. */
  datatype BibleInfo = BibleInfo(id: int, shortName: string, longName: string) {

    /** `get_full_name`: the text of the book's item in the book list. */
    function FullName(): string
    {
      "(" + shortName + ") " + longName
    }
  }

  /** A row of the `verses` table. */
  datatype VerseRow = VerseRow(book: int, chapter: int, verse: int, text: string)

  /** The contents of one opened translation database. */
  datatype Tables = Tables(books: seq<BibleInfo>, verses: seq<VerseRow>)

  /** The module-level `cursor`. */
  type Cursor = Option<Tables>

  /** One `(verse, text)` pair returned by `get_verses`. */
  datatype Verse = Verse(number: int, text: string)

  /**
   * The full name determines the book's names as long as short names hold
   * no `)`; the book list relies on this to map an item back to its book.
   */
  lemma FullNameInjective(a: BibleInfo, b: BibleInfo)
    requires ')' !in a.shortName && ')' !in b.shortName
    requires a.FullName() == b.FullName()
    ensures a.shortName == b.shortName && a.longName == b.longName
  {
    var fa, fb := a.FullName(), b.FullName();
    assert fa[1 + |a.shortName|] == ')' && fb[1 + |b.shortName|] == ')';
    assert |a.shortName| == |b.shortName|;
    assert a.shortName == fa[1..1 + |a.shortName|];
    assert b.shortName == fb[1..1 + |b.shortName|];
    assert a.longName == fa[3 + |a.shortName|..];
    assert b.longName == fb[3 + |b.shortName|..];
  }

  // ---------------------------------------------------------------------------
  // get_bible_info: SELECT book_number, short_name, long_name FROM books ORDER BY book_number
  // ---------------------------------------------------------------------------

  predicate SortedById(s: seq<BibleInfo>)
  {
    forall i, j :: 0 <= i < j < |s| ==> s[i].id <= s[j].id
  }

  /** Inserts `b` before the first entry whose id is not smaller. */
  function InsertById(b: BibleInfo, s: seq<BibleInfo>): (r: seq<BibleInfo>)
    requires SortedById(s)
    ensures SortedById(r)
    ensures multiset(r) == multiset(s) + multiset{b}
    ensures forall k :: 0 <= k < |r| ==> r[k] == b || r[k] in s
  {
    if |s| == 0 then
      [b]
    else if b.id <= s[0].id then
      ConsSorted(b, s);
      [b] + s
    else
      var tail := InsertById(b, s[1..]);
      InsertBehindHead(b, s, tail);
      [s[0]] + tail
  }

  /** The first entry, kept in front of `b` inserted into the rest, completes the insertion into the whole. */
  lemma InsertBehindHead(b: BibleInfo, s: seq<BibleInfo>, tail: seq<BibleInfo>)
    requires SortedById(s) && |s| > 0 && s[0].id < b.id
    requires SortedById(tail) && multiset(tail) == multiset(s[1..]) + multiset{b}
    requires forall k :: 0 <= k < |tail| ==> tail[k] == b || tail[k] in s[1..]
    ensures SortedById([s[0]] + tail)
    ensures multiset([s[0]] + tail) == multiset(s) + multiset{b}
    ensures forall k :: 0 <= k < |tail| + 1 ==> ([s[0]] + tail)[k] == b || ([s[0]] + tail)[k] in s
  {
    assert s == [s[0]] + s[1..];
    forall k | 0 <= k < |tail|
      ensures s[0].id <= tail[k].id && (tail[k] == b || tail[k] in s)
    {
      if tail[k] != b {
        var j :| 0 <= j < |s[1..]| && s[1..][j] == tail[k];
        assert s[j + 1] == tail[k];
      }
    }
    ConsSorted(s[0], tail);
  }

  /** An entry no later than any of a sorted sequence may go in front of it. */
  lemma ConsSorted(x: BibleInfo, t: seq<BibleInfo>)
    requires SortedById(t) && forall k :: 0 <= k < |t| ==> x.id <= t[k].id
    ensures SortedById([x] + t)
  {
    assert forall k :: 0 < k < |t| + 1 ==> ([x] + t)[k] == t[k - 1];
  }

  /** Orders rows by id; rows with equal ids keep their storage order. */
  function SortById(s: seq<BibleInfo>): (r: seq<BibleInfo>)
    ensures SortedById(r)
    ensures multiset(r) == multiset(s)
  {
    if |s| == 0 then
      []
    else
      assert s == [s[0]] + s[1..];
      InsertById(s[0], SortById(s[1..]))
  }

  /** `get_bible_info`: every book row, ordered by book number; `[]` with no cursor. */
  function GetBibleInfo(cursor: Cursor): (r: seq<BibleInfo>)
    ensures cursor.None? ==> r == []
    ensures cursor.Some? ==> SortedById(r) && multiset(r) == multiset(cursor.value.books)
  {
    match cursor
    case None => []
    case Some(tables) => SortById(tables.books)
  }

  // ---------------------------------------------------------------------------
  // get_chapter_number: SELECT chapter FROM verses WHERE book_number == ? GROUP BY chapter
  // ---------------------------------------------------------------------------

  /** The chapter numbers stored for `book`. */
  ghost function ChapterSet(rows: seq<VerseRow>, book: int): set<int>
  {
    set v | v in rows && v.book == book :: v.chapter
  }

  predicate Distinct(s: seq<int>)
  {
    forall i, j :: 0 <= i < j < |s| ==> s[i] != s[j]
  }

  /** The result rows of the GROUP BY query: one per distinct chapter of `book`. */
  function ChapterGroups(rows: seq<VerseRow>, book: int): (cs: seq<int>)
    ensures Distinct(cs)
    ensures (set c | c in cs) == ChapterSet(rows, book)
  {
    if |rows| == 0 then
      []
    else
      var rest := ChapterGroups(rows[1..], book);
      assert rows == [rows[0]] + rows[1..];
      assert ChapterSet(rows, book) == ChapterSet(rows[1..], book) + (if rows[0].book == book then {rows[0].chapter} else {});
      if rows[0].book == book && rows[0].chapter !in rest then [rows[0].chapter] + rest else rest
  }

  lemma {:induction false} DistinctCardinality(cs: seq<int>)
    requires Distinct(cs)
    ensures |set c | c in cs| == |cs|
  {
    if |cs| > 0 {
      DistinctCardinality(cs[1..]);
      assert (set c | c in cs) == (set c | c in cs[1..]) + {cs[0]};
      assert cs[0] !in (set c | c in cs[1..]);
    }
  }

  /** `get_chapter_number`: how many distinct chapters `book` has; `-1` with no cursor. */
  function GetChapterNumber(cursor: Cursor, book: int): (n: int)
    ensures cursor.None? ==> n == -1
    ensures cursor.Some? ==> n == |ChapterSet(cursor.value.verses, book)|
  {
    match cursor
    case None => -1
    case Some(tables) =>
      var groups := ChapterGroups(tables.verses, book);
      DistinctCardinality(groups);
      |groups|
  }

  /**
   * `[str(i) for i in range(1, numbers + 1)]`: the items of the chapter list.
   * Item `i` reads back as chapter `i + 1`; a non-positive count gives no items.
   */
  function ChapterLabels(n: int): (r: seq<string>)
    ensures |r| == if n > 0 then n else 0
    ensures forall i :: 0 <= i < |r| ==> IsCanonicalDecimal(r[i]) && DecimalValue(r[i]) == i + 1
  {
    var r := seq(if n > 0 then n else 0, i requires 0 <= i => Decimal(i + 1));
    assert forall i :: 0 <= i < |r| ==> DecimalValue(r[i]) == i + 1 by {
      forall i | 0 <= i < |r| ensures DecimalValue(r[i]) == i + 1 {
        DecimalRoundTrip(i + 1);
      }
    }
    r
  }

  // ---------------------------------------------------------------------------
  // get_verses: SELECT verse, text FROM verses WHERE book_number == ? AND chapter == ?
  // ---------------------------------------------------------------------------

  predicate InChapter(v: VerseRow, book: int, chapter: int)
  {
    v.book == book && v.chapter == chapter
  }

  /** The rows of one chapter, in storage order (the query has no ORDER BY). */
  function SelectRows(rows: seq<VerseRow>, book: int, chapter: int): (r: seq<VerseRow>)
    ensures |r| <= |rows|
    ensures forall k :: 0 <= k < |r| ==> InChapter(r[k], book, chapter)
    ensures forall v :: v in r <==> v in rows && InChapter(v, book, chapter)
  {
    if |rows| == 0 then
      []
    else
      var rest := SelectRows(rows[1..], book, chapter);
      assert rows == [rows[0]] + rows[1..];
      if InChapter(rows[0], book, chapter) then [rows[0]] + rest else rest
  }

  /** Selecting from two stretches of the table selects from each and keeps their order. */
  lemma {:induction false} SelectRowsAppend(a: seq<VerseRow>, b: seq<VerseRow>, book: int, chapter: int)
    ensures SelectRows(a + b, book, chapter) == SelectRows(a, book, chapter) + SelectRows(b, book, chapter)
  {
    if |a| == 0 {
      assert a + b == b;
    } else {
      assert (a + b)[1..] == a[1..] + b;
      SelectRowsAppend(a[1..], b, book, chapter);
    }
  }

  /**
   * `get_verses`: the chapter's rows with their verse numbers and order kept
   * and only the text sanitised; `[]` with no cursor.
   */
  function GetVerses(cursor: Cursor, book: int, chapter: int): (r: seq<Verse>)
    ensures cursor.None? ==> r == []
    ensures cursor.Some? ==>
      var rows := SelectRows(cursor.value.verses, book, chapter);
      && |r| == |rows|
      && forall i :: 0 <= i < |r| ==> r[i].number == rows[i].verse && r[i].text == Sanitize(rows[i].text)
    ensures forall i :: 0 <= i < |r| ==> Clean(r[i].text)
  {
    match cursor
    case None => []
    case Some(tables) =>
      var rows := SelectRows(tables.verses, book, chapter);
      seq(|rows|, i requires 0 <= i < |rows| => Verse(rows[i].verse, Sanitize(rows[i].text)))
  }

  /** Re-sanitising what `get_verses` returned changes nothing. */
  lemma GetVersesStable(cursor: Cursor, book: int, chapter: int)
    ensures forall v :: v in GetVerses(cursor, book, chapter) ==> Sanitize(v.text) == v.text
  {
    forall v | v in GetVerses(cursor, book, chapter) ensures Sanitize(v.text) == v.text {
      SanitizeFixedPoints(v.text);
    }
  }

  /** `f"{s:<5}"`: `s` padded with spaces on the right to at least five characters. */
  function PadRight(s: string, width: nat): (r: string)
    ensures |r| == if |s| < width then width else |s|
    ensures r[..|s|] == s
    ensures forall k :: |s| <= k < |r| ==> r[k] == ' '
    decreases width - |s|
  {
    if |s| < width then PadRight(s + " ", width) else s
  }

  /**
   * `f"{str(verse[0]) + '.':<5} {verse[1]}"`: a verse-list item, the numbered
   * prefix padded to five characters, then a space and the text.
   */
  function VerseLabel(v: Verse): (r: string)
    ensures IsPrefix(IntToString(v.number) + ".", r)
    ensures
      var w := |IntToString(v.number)| + 1;
      var h := if w < 5 then 5 else w;
      && |r| == h + 1 + |v.text|
      && (forall k :: w <= k <= h ==> r[k] == ' ')
      && r[h + 1..] == v.text
  {
    var head := PadRight(IntToString(v.number) + ".", 5);
    var r := head + " " + v.text;
    assert r[..|head|] == head;
    assert r[|head| + 1..] == v.text;
    r
  }

  /** The items the verse list shows for one chapter. */
  function VerseItems(verses: seq<Verse>): (r: seq<string>)
    ensures |r| == |verses|
    ensures forall i :: 0 <= i < |r| ==> r[i] == VerseLabel(verses[i])
    ensures forall i :: 0 <= i < |r| ==> IsPrefix(IntToString(verses[i].number) + ".", r[i])
  {
    seq(|verses|, i requires 0 <= i < |verses| => VerseLabel(verses[i]))
  }

  /**
   * `counts` lists, for each chapter row of `book`, how many items the verse
   * list holds once that row is selected: row `i` loads chapter `i + 1`
   * (`selected_chapter_changed`).
   */
  ghost predicate IsVerseCounts(counts: seq<nat>, cursor: Cursor, book: int)
  {
    && |counts| == |ChapterLabels(GetChapterNumber(cursor, book))|
    && forall i :: 0 <= i < |counts| ==> counts[i] == |VerseItems(GetVerses(cursor, book, i + 1))|
  }

}
